=== FILE: README.md ===
# Tower defence core in Dafny

This project models the simulation core of a browser tower-defence game. The
game has two variants, a 2D canvas one and a 3D one, plus a farming side-game.
The model covers three pieces:

- **The 2D wave scheduler** (`tower_defend/js/game.js`).
  - The wave button is a two-flag state machine: the first press previews the wave, the second starts it.
  - The wave formulas: enemy count, a spawn interval with a floor, and a floored reward.
  - The per-frame loop: at most one spawn, then the completion check. Completion pays the reward, advances the wave, changes the map every five waves and resets the damage ledger.
  - Removal of dead or escaped enemies, with no bounty for a kill.
  - Lives and game over.
- **The 3D variant** (`tower_defend/js/game3d.js`).
  - Towers: damage per level, upgrades capped at level 5, and nearest-in-range targeting. Ties go to the enemy found first. Fire control is a cooldown.
  - Enemies: movement along the path, freezing by ice hits, and a life lost at the path's end.
  - Projectiles: a hit deals damage once, and the ledger is credited only when the hit kills.
  - Grid snapping and tower placement.
  - A wave scheduler with fixed numbers. The whole frame is proved to keep a well-formedness invariant.
- **The farm** (`tower_defend/js/farm.js`).
  - Planting, watering and harvesting on a 15 x 20 grid. These spend the same `money` as the combat side.
  - The crop's water/growth/death step.
  - The throttled water warnings.
  - The mapping from a canvas click to a farm tile.

Modules:

| module | file | what |
|---|---|---|
| `Kinds` | kinds.dfy | enemy and tower kinds, `Option` (JavaScript `null`) |
| `Ledger` | ledger.dfy | `damageStats`: one counter per tower kind plus the total |
| `Wave2D` | wave2d.dfy | game.js scheduler and frame |
| `Grid3D` | grid3d.dfy | `worldToGrid`, `gridToWorld`, build area |
| `Units3D` | units3d.dfy | `Tower3D`, `Enemy3D`, `Projectile3D` |
| `Game3D` | game3d.dfy | 3D wave button, spawning, placement, frame, invariant |
| `Crops` | crops.dfy | the `Crop` class |
| `FarmGrid` | farmgrid.dfy | farm grid, plot layout, `pixelToFarmCell` |
| `Farm` | farm.dfy | `plantCrop`, `waterCrop`, `harvestCrop`, `checkWaterNeeds`, the farm frame |

### Modelling choices

- **Numbers.** JavaScript numbers are `real` where fractions occur: wave-table factors, water level, path progress and positions. Money, lives, health and damage are `int`. `Math.floor` is `.Floor`.
- **Distances.** Comparisons of `Math.sqrt` distances are stated on squared distances:
  - `sqrt(d) < r` becomes `r > 0 && d < r*r`;
  - the projectile contact test `dist < 0.6` becomes `d < 0.36`.
- **3D enemy position.** An enemy has no position until its first update (`Option`), because `Enemy3D` leaves `x` undefined. Its distance is then `NaN` and no tower can target it.
- **3D identities.**
  - Each 3D enemy carries an identity, and a projectile names its target by identity.
  - "The target is gone" (`!target.mesh.parent`) means no enemy in the list has that identity.
- **Parameters.** Things defined outside the modelled files enter as parameters:
  - the wave table (`WaveConfig`);
  - the reward multiplier of the current map;
  - the 2D `Enemy` constructor and per-enemy `update`;
  - `getPathPosition`;
  - projectile steering;
  - `TOWER_CONFIG` (a `TowerSpec` per kind and an upgrade-cost function).
- **Randomness and time.**
  - `Math.random()` is a parameter in [0, 1). The spawner's pick `types[floor(r * n)]` is proved to index the roster.
  - `Date.now()` is an explicit `now`.
- **Farm grid.** The farm keeps its crops twice, in `farmGrid` and in `farmCrops`. Both always hold the same crops, so the model keeps one map from tile to crop.
- **Grid keys.** `getGridKey`'s string key is the `Cell` value itself.

### Behaviour worth noting

- In 2D, a wave-button press during an active wave still acts (game.js:121-132): with the preview flag down it shows the preview and raises the flag. The 3D variant ignores every press during a wave. `Wave2D.PressDuringActiveWave` states the as-written effect.
- A 3D tower's cooldown is decremented every frame and never clamped at 0 (game3d.js:420). `Units3D.TowerStep` keeps that.
- A dead crop is never removed from its tile (farm.js:195-198, 460-553). Its tile stays blocked for the rest of the game (`Farm.DeadCropBlocksTile`).
- The water-warning counter checked against `maxWarningsPerWave` is cleared only by `resetVariables` (game.js:96-97) and never when a wave ends, so at most 3 warnings are shown per game (`Farm.WarningCapIsFinal`).
- The 2D `startNextWave` leaves `spawnTimer` as it is (game.js:134-145). The 3D one resets it to 0.
- A crop's stage is not capped: a ripe crop left in the ground keeps advancing, and `update` reports it ready again at each further stage (farm.js:146-154).
- With the layout `drawFarm` computes (5 x 3 plots), clicks reach only rows 0-10 and columns 0-18 of the 15 x 20 grid (`FarmGrid.DrawnReach`).

## Model

| member | source | states |
|---|---|---|
| Ledger.Zero | tower_defend/js/game.js:362-372 | the reset ledger has a zero row for every tower kind, a zero total, and is consistent |
| Ledger.Credit | tower_defend/js/game3d.js:688-689 | the credited kind's row and the total grow by the amount, every other row is unchanged |
| Ledger.CreditConsistent | tower_defend/js/game3d.js:688-689 | crediting keeps the total equal to the sum of the per-kind rows |
| Wave2D.RosterUnlock | tower_defend/js/game.js:158-181 | a kind is announced for wave n exactly when it is Normal or n has reached its unlock wave (checked against an independent unlock table) |
| Wave2D.RosterMonotone | tower_defend/js/game.js:158-181 | the announced roster only grows with the wave number and always contains Normal |
| Wave2D.SpawnTotal | tower_defend/js/game.js:141 | the wave size minus the base count is the largest integer not above wave x per-wave count |
| Wave2D.SpawnInterval | tower_defend/js/game.js:142 | the interval is never below the configured minimum nor below the linear value, and equals one of them |
| Wave2D.SpawnIntervalMonotone | tower_defend/js/game.js:142 | with a non-negative decrease, a later wave never spawns more slowly |
| Wave2D.WaveReward | tower_defend/js/game.js:346-349 | the reward is the floor of (base + wave x per-wave) x multiplier |
| Wave2D.RewardMonotone | tower_defend/js/game.js:346-349 | with a non-negative per-wave bonus and multiplier, a later wave never pays less |
| Wave2D.StartNextWave | tower_defend/js/game.js:134-145 | no effect during an active wave; otherwise the wave becomes active with zero spawned, the preview flag down, the configured total and an interval at or above the minimum; money, lives, wave, enemies, towers, projectiles, ledger, running flag, farm mode and map are unchanged |
| Wave2D.PressWaveButton | tower_defend/js/game.js:121-145 | a preview (the roster of the current wave) is shown exactly when the preview flag is down, and only raises that flag; a press with the flag up has exactly the effect of `startNextWave` |
| Wave2D.TwoPressesStartWave | tower_defend/js/game.js:121-145 | from idle, one press does not start the wave and two presses do, with zero spawned and the wave's total |
| Wave2D.PressDuringActiveWave | tower_defend/js/game.js:121-136 | during an active wave a press changes nothing but the preview flag |
| Wave2D.SpawnStep | tower_defend/js/game.js:334-340 | when the incremented timer reaches the interval and enemies remain, exactly one enemy is appended and the timer resets; otherwise only the timer advances; spawned never passes the total |
| Wave2D.ChangeToNextMap | tower_defend/js/game.js:244-268 | towers and projectiles are cleared, money, lives, wave and enemies kept, and the map is regenerated for the current wave |
| Wave2D.CompleteStep | tower_defend/js/game.js:341-372 | when everything spawned is gone: the wave ends, the reward is paid, the wave advances, the ledger is zeroed, and the map changes exactly when the new wave is 1 mod 5 and above 1; otherwise nothing changes |
| Wave2D.MapChangeAtWaveSix | tower_defend/js/game.js:354-359 | clearing wave 5 moves to wave 6 on a fresh map with towers and projectiles removed and only the reward added |
| Wave2D.SpawnBeforeCompletion | tower_defend/js/game.js:333-343 | a frame that spawns never also completes the wave |
| Wave2D.Survivors | tower_defend/js/game.js:389-404 | after the enemy pass every remaining enemy has positive health and did not reach the end, and every such enemy remains; nothing is paid |
| Wave2D.SurvivorCount | tower_defend/js/game.js:389-404 | the pass keeps exactly as many enemies as there are positions whose updated enemy is alive and did not reach the end, so two equal records are both kept |
| Wave2D.Tick | tower_defend/js/game.js:321-404 | a stopped game or farm mode freezes all state; otherwise an active wave spawns exactly when a spawn is due (timer reset, one more spawned) and otherwise advances the timer, the wave is completed exactly when it was active and cleared, and the enemies left are the survivors of the list after the spawn; the wave advances by at most one, money changes only by that wave's reward, the ledger is zeroed on completion and spawned stays within the total |
| Wave2D.GameOverIsFinal | tower_defend/js/game.js:233-242 | after `gameOver`, and after the last life is lost, every later frame leaves the whole state unchanged |
| Wave2D.TakeDamage | tower_defend/js/game.js:233-242 | exactly one life is lost; the game keeps running only if lives remain above 0; nothing else changes |
| Grid3D.WorldToGrid | tower_defend/js/game3d.js:723-727 | the cell is always on the 35 x 35 board, and for points on the map the point lies inside the cell |
| Grid3D.GridRoundTrip | tower_defend/js/game3d.js:723-734 | snapping the centre of any on-board cell gives the cell back |
| Grid3D.SnapIdempotent | tower_defend/js/game3d.js:723-734 | snapping a snapped point does not move it |
| Grid3D.BuildAreaCells | tower_defend/js/game3d.js:772 | a cell's centre is in the build rectangle exactly for columns 4-30 and rows 3-31 |
| Units3D.PathLengthOfWaypoints | tower_defend/js/game3d.js:96-108 | the waypoint polyline is axis-aligned and 113 units long, the constant the enemy speed is divided by |
| Units3D.NewTower | tower_defend/js/game3d.js:283-295 | a new tower is level 1, ready to fire, with the catalogue's damage and fire rate and its range scaled down by 40 |
| Units3D.Damage | tower_defend/js/game3d.js:403-405 | a level-1 tower deals its base damage |
| Units3D.Upgrade | tower_defend/js/game3d.js:407-417 | an upgrade succeeds exactly below level 5 with enough money; on success money drops by the cost and the level rises by one, on failure nothing changes; the level never passes 5 |
| Units3D.UpgradeRaisesDamage | tower_defend/js/game3d.js:403-417 | a successful upgrade adds exactly the per-level bonus to the damage |
| Units3D.NewEnemy | tower_defend/js/game3d.js:463-471 | a new enemy has health = maxHealth = 30 + 15 x wave, no progress, no freeze and no position yet |
| Units3D.Advance | tower_defend/js/game3d.js:584-619 | an unfrozen enemy moves by speed/path length, a frozen one stays and counts its freeze down, thawing at 0; it reaches the end exactly when progress is at least 1; health is unchanged |
| Units3D.AdvanceAsWritten | tower_defend/js/game3d.js:590-597 | the update throws exactly for a frozen armored or flying enemy, after counting its freeze down and before moving it; any other enemy takes the intended step |
| Units3D.MarchAsWritten | tower_defend/js/game3d.js:1069 | the pass stops exactly when some enemy throws; without a throw it keeps and counts exactly what the intended pass does; every enemy is kept or counted as escaped |
| Units3D.MarchAsWrittenStops | tower_defend/js/game3d.js:1069 | the enemies before the first throwing one march as intended, the throwing one only counts its freeze down, and the ones after it are left as they were |
| Units3D.FrozenArmoredStallsPass | tower_defend/js/game3d.js:590-597 | behind a frozen armored enemy an unfrozen enemy stands still in the pass as written, although its intended step moves it |
| Units3D.TakeDamage | tower_defend/js/game3d.js:621-637 | health drops by the amount, the hit kills exactly when health reaches 0 or below, and an ice hit freezes an unfrozen enemy for 60 frames |
| Units3D.IceDoesNotRefreeze | tower_defend/js/game3d.js:624-627 | an ice hit on a frozen enemy leaves its remaining freeze unchanged |
| Units3D.MarchAll | tower_defend/js/game3d.js:612-616 | after the enemy pass, the kept enemies are exactly the updated ones that did not reach the end, each escape is counted once, and identities stay distinct |
| Units3D.Nearest | tower_defend/js/game3d.js:424-437 | no target exactly when no enemy is in range; otherwise the target is in range, no in-range enemy is closer, and every earlier one is strictly farther |
| Units3D.NearestFrom | tower_defend/js/game3d.js:427-437 | the scan from any index keeps the best-so-far invariant and ends with the nearest target |
| Units3D.NearestUnique | tower_defend/js/game3d.js:427-437 | at most one index meets the targeting rule, so the tie-break makes the target unique |
| Units3D.TowerStep | tower_defend/js/game3d.js:419-452 | the tower fires exactly when it has a target and the decremented cooldown is at most 0; the shot starts at the tower at height 1.5, aims at the nearest enemy, carries the tower's damage and resets the cooldown to the fire rate |
| Units3D.NoTargetNoShot | tower_defend/js/game3d.js:439-452 | with no enemy in range a tower never fires and only cools down |
| Units3D.TowersStep | tower_defend/js/game3d.js:1067 | every tower takes one step against the same enemy list; there are at most as many shots as towers, none when no tower fires, and each targets a positioned enemy of that list |
| Units3D.VolleyComplete | tower_defend/js/game3d.js:1067 | the shots are exactly the towers' shots: each firing tower contributes its shot and every shot comes from some tower |
| Units3D.IndexOfId | tower_defend/js/game3d.js:671-674 | finds the first enemy with the identity, or reports that none has it |
| Units3D.ProjectileStep | tower_defend/js/game3d.js:671-695 | a projectile whose target is gone disappears with no effect; one in contact with its target always hits: it damages the target once and disappears, and only a kill removes the target (exactly that identity) and credits the ledger; one out of contact moves by the steering step and nothing else changes |
| Units3D.ProjectilesStep | tower_defend/js/game3d.js:1071 | the pass removes one enemy per killing hit and no other, keeps the ledger consistent, leaves it alone when nothing dies, and every projectile still in flight is one it started with, changed at most in position |
| Units3D.StepKeepsOthers | tower_defend/js/game3d.js:671-694 | with distinct identities, a projectile's step leaves the enemy of every other identity as it was |
| Units3D.PassKeepsUnshared | tower_defend/js/game3d.js:1071 | with distinct identities, a projectile whose target no earlier projectile aims at does in the pass what it does alone: if it flies on alone, it is in flight after the pass, whatever the others hit or kill |
| Units3D.PassCredits | tower_defend/js/game3d.js:686-691 | over the whole pass the ledger total and every per-kind row grow by exactly the damage of the killing hits |
| Units3D.PassRemovesKilled | tower_defend/js/game3d.js:686-694 | with distinct identities, the enemies that disappear in the pass are exactly the targets of the killing hits, and the survivors are none of them |
| Units3D.QuietPass | tower_defend/js/game3d.js:671-695 | when no projectile touches its target, the pass changes no enemy and no ledger row and kills nothing |
| Units3D.QuietPassKeeps | tower_defend/js/game3d.js:697-699 | when no projectile touches its target, every projectile whose target is present flies on |
| Units3D.QuietPassOnly | tower_defend/js/game3d.js:671-699 | when no projectile touches its target, everything in flight afterwards is one of them after its step |
| Game3D.InitialValid | tower_defend/js/game3d.js:42-77 | the initial state (20 lives, 175 money, wave 1, no wave, no units) is well formed |
| Game3D.StartGameValid | tower_defend/js/game3d.js:806-814 | starting keeps the state well formed and sets it running; before that the frame moves nothing |
| Game3D.SpawnKindsMatchPreview | tower_defend/js/game3d.js:863-873 | the spawner's kinds and the announced kinds are the same set for every wave |
| Game3D.PickKind | tower_defend/js/game3d.js:1042 | a random draw in [0, 1) always picks a kind of the roster |
| Game3D.StartNextWave | tower_defend/js/game3d.js:843-852 | no effect during an active wave; otherwise the wave starts with 10 + 2 x wave enemies to spawn, zero spawned and the timer at 0 |
| Game3D.PressWaveButton | tower_defend/js/game3d.js:830-852 | presses during an active wave do nothing; the preview is shown exactly from the idle state; the second press has exactly the effect of `startNextWave` |
| Game3D.Place | tower_defend/js/game3d.js:741-786 | a tower is placed exactly on a double click with a tower selected, a free snapped cell, enough money and a snapped position in the build rectangle; money then drops by the cost and the cell becomes occupied; every refusal leaves the state unchanged |
| Game3D.NoDoublePlacement | tower_defend/js/game3d.js:766-770 | after a placement, another placement in the same cell is refused as occupied |
| Game3D.SpawnStep | tower_defend/js/game3d.js:1029-1045 | a spawn happens exactly when the timer passes 50 and enemies remain; the new enemy has a fresh identity, a kind from the wave's roster and 30 + 15 x wave health |
| Game3D.CompleteStep | tower_defend/js/game3d.js:1047-1064 | when everything spawned is gone the reward 100 + 20 x wave is paid, the wave advances, the next total is set and the ledger zeroed; otherwise nothing changes |
| Game3D.Tick | tower_defend/js/game3d.js:986-1085 | a stopped game is frozen; otherwise every tower takes its step against the enemies present before they move, enemies only leave, lives drop by exactly the number of escapes, the game runs on exactly while lives are positive, money changes only by the wave reward, and cells and tower count are untouched |
| Game3D.TickAsWritten | tower_defend/js/game3d.js:1067-1079 | a frame in which no enemy throws is exactly the intended frame; after a throw every projectile and every new shot stays in flight unmoved, the ledger stands and the game keeps running whatever the lives |
| Game3D.FrozenArmoredDelaysGameOver | tower_defend/js/game3d.js:1069-1079 | an escape that takes the last life, with a frozen armored enemy behind it, leaves the game running at 0 lives as written, where the intended frame ends it |
| Game3D.QuietFrame | tower_defend/js/game3d.js:1067-1071 | with nothing in flight and no enemy in any tower's range the frame fires nothing: enemies only march and the ledger is untouched |
| Game3D.TickCombat | tower_defend/js/game3d.js:1067-1071 | in a running frame every firing tower's shot enters the projectile pass, the ledger total and each per-kind row grow by exactly the damage of the killing hits, and the enemies removed after the march are exactly their targets |
| Game3D.TickProjectiles | tower_defend/js/game3d.js:1067-1071 | after a running frame there are no more projectiles in flight than before plus the volley, each is one of those moved on, and with distinct identities every one whose target no earlier one aims at and that flies on by itself is still in flight |
| Game3D.EscapeCostsOneLife | tower_defend/js/game3d.js:612-616 | an enemy reaching the end is removed whatever its health and costs exactly one life |
| Game3D.TickPreservesValid | tower_defend/js/game3d.js:986-1085 | every frame keeps the state well formed: spawned within the total, levels in 1-5, distinct enemy identities below the next one, consistent ledger |
| Game3D.PlacePreservesValid | tower_defend/js/game3d.js:741-786 | placing a tower keeps the state well formed |
| Game3D.PressPreservesValid | tower_defend/js/game3d.js:830-852 | pressing the wave button keeps the state well formed |
| Crops.Spec | tower_defend/js/farm.js:6-34 | every crop kind has positive cost, times, value and stage count |
| Crops.NewCrop | tower_defend/js/farm.js:81-105 | a new crop is alive at stage 0 with full water and all clocks at planting time |
| Crops.CriticalIsThirsty | tower_defend/js/farm.js:571-578 | a crop past three water intervals is also past one |
| Crops.Drained | tower_defend/js/farm.js:125-129 | the drained water level is never negative and never above the previous level when time moves forward |
| Crops.Update | tower_defend/js/farm.js:112-161 | a dead crop is unchanged; water stays non-negative; a live crop dies exactly when it is past three intervals and drained dry; the stage rises by at most one and only while healthy; ready whenever the stage advances to or past the last stage |
| Crops.UpdateKeepsWaterInRange | tower_defend/js/farm.js:125-129 | with a forward clock the water level stays within 0-100 and never rises |
| Crops.WateredCropSurvives | tower_defend/js/farm.js:131-135 | a crop not yet critical, or still holding water after the drain, survives the update |
| Crops.Water | tower_defend/js/farm.js:163-177 | watering succeeds exactly for a live crop and then resets the water clock and adds 30 capped at 100; a dead crop is unchanged |
| Crops.WaterKeepsRange | tower_defend/js/farm.js:163-167 | watering keeps the level within 0-100 and never lowers it |
| Crops.WateredIsNotCritical | tower_defend/js/farm.js:163-167 | a just-watered crop is neither overdue nor critical |
| Crops.HarvestValueBounds | tower_defend/js/farm.js:179-183 | with water in range the value is positive exactly for a mature live crop, and then lies between the base value and base + 10 |
| Crops.ReadyIsMature | tower_defend/js/farm.js:146-154 | a crop reported ready can be sold |
| Crops.DeathIsFinal | tower_defend/js/farm.js:112-113 | a dead crop is unchanged by updates, refuses water and sells for 0 |
| FarmGrid.Drawn | tower_defend/js/farm.js:651-669 | the drawn layout has 5 x 3 plots centred on the canvas |
| FarmGrid.PixelToCellSound | tower_defend/js/farm.js:743-766 | a selected tile is on the 15 x 20 grid, inside a plot (never in the spacing), and the click lies on that tile |
| FarmGrid.CentreSelectsCell | tower_defend/js/farm.js:743-766 | clicking the centre of any plot tile inside the layout selects that tile |
| FarmGrid.UnsetSelectsNothing | tower_defend/js/farm.js:67 | before the farm is drawn no click selects a tile |
| FarmGrid.DrawnReach | tower_defend/js/farm.js:743-766 | with the drawn layout a selected tile lies in rows 0-10 and columns 0-18 |
| Farm.PlantCost | tower_defend/js/farm.js:473-474 | with multiplier 1.0 the planting price is the catalogue cost |
| Farm.Plant | tower_defend/js/farm.js:460-495 | planting succeeds exactly in farm mode, in bounds, on an empty tile with enough money; money then drops by the cost and the tile gets a new crop; otherwise nothing changes |
| Farm.WaterAt | tower_defend/js/farm.js:497-521 | watering succeeds exactly in farm mode on an in-bounds live crop with at least 5 money; it then costs 5 and sets the level to min(100, level + 30); otherwise nothing changes |
| Farm.HarvestAt | tower_defend/js/farm.js:523-553 | the value is the crop's harvest value (0 off-mode, out of bounds or on an empty tile); a positive value is added to money and earnings, counts one harvest and frees the tile; 0 changes nothing |
| Farm.HarvestPaysForMature | tower_defend/js/farm.js:523-553 | harvesting pays exactly for a mature crop and then empties its tile |
| Farm.DeadCropBlocksTile | tower_defend/js/farm.js:460-553 | a dead crop's tile can be neither planted, watered nor harvested, and stays dead through the frame |
| Farm.CriticalWithinThirsty | tower_defend/js/farm.js:567-579 | every live crop past three water intervals is also past one, so the `needsWater` test adds nothing to the critical one |
| Farm.CheckWaterNeeds | tower_defend/js/farm.js:555-587 | a warning is raised only when the reminder interval has passed, fewer than 3 were shown and some live crop is critical, and then always; the count never passes 3 |
| Farm.WarningCapIsFinal | tower_defend/js/farm.js:555-561 | after three warnings no frame ever warns again |
| Farm.WarningsSpaced | tower_defend/js/farm.js:559-583 | two successive warnings are at least 10 seconds apart |
| Farm.Tick | tower_defend/js/farm.js:771-801 | outside farm mode nothing happens; otherwise each crop takes exactly one update, no tile is added or removed, and money is unchanged |
| Farm.ActionsPreserveValid | tower_defend/js/farm.js:460-587 | planting, watering, harvesting and the frame keep crops on the grid and the warning count within 0-3 |
| Farm.TickKeepsWaterInRange | tower_defend/js/farm.js:112-161 | with a forward clock every crop's water stays within 0-100 across a frame |

## Left out

- Drawing and presentation are not modelled: canvas, THREE.js meshes, lights, camera, hover range, particles, alerts, notifications and DOM updates. They carry no game state.
- `requestAnimationFrame`, `setTimeout` and `location.reload` are not modelled. One frame is one call of a `Tick` function.
- `WAVE_CONFIG`, `TOWER_CONFIG`, `ENEMY_CONFIG`, `generateMapForWave`, `applyMapEconomyScaling`, `getCurrentRewardMultiplier` and the 2D `Enemy`, `Tower` and `Projectile` classes are defined outside the modelled files. They enter as parameters, or the model keeps only a kind tag.
- Enemy immunities are not modelled: the modelled code only displays them and never enforces them.
- `getPathPosition` is not modelled: its float geometry is a parameter. Projectile steering (the normalised step of 0.3) is also a parameter.
- The `forEach` loops that `splice` the list they walk are modelled as filters. In the source a removal can make the loop skip the next element for one frame.
- `getGridKey`'s string key is not modelled: the key is the cell value, which is one-to-one with the string.
- `resetVariables`, `updateWaveButton`, `selectTower`, `switchToFarm` and `switchToTower` are not modelled. They set UI state or reinitialise variables; the farm-mode flag itself is a field.
- The planting animation (`isPlanting`, `plantAnimationTime`) and the click coordinates stored on a crop affect only drawing and are not modelled.
- Wave2D.Tick: keeps lives unchanged, because the life lost by an escaping 2D enemy is charged inside the 2D `Enemy.update`, which is not part of this model; `Wave2D.TakeDamage` models `takeDamage` itself.
- Wave2D.Enemy: holds only kind and health, without position or identity, because the 2D `Enemy.update` that moves it is not part of this model; two enemies with equal records therefore update alike. `Wave2D.SurvivorCount` still keeps each of them as its own copy.
- Units3D.Upgrade: is not called by the 3D game loop or click handler, so `Game3D` has no upgrade action.
- Game3D.Tick: `Math.random()` enters as one draw per frame, which is enough because at most one enemy spawns per frame.
- Units3D.ProjectileStep: a projectile whose target has no position yet is kept where it is; in the source its NaN distance would send it to a NaN position. The case does not arise in a frame, because towers only target positioned enemies and a position, once set, stays set.

## Findings

| source | as written | input that shows it | evidently intended | confidence | as-written member | corrected member |
|---|---|---|---|---|---|---|
| tower_defend/js/game3d.js:590-597 | a frozen enemy is recoloured through `this.mesh.material`, but armored and flying enemies are drawn as a `THREE.Group` (game3d.js:501-532), which has no `material`; the update throws after counting the freeze down, and the rest of `gameLoop` (the other enemies, the projectiles, the game-over check) is skipped for that frame | an armored enemy frozen by an ice hit with an unfrozen enemy behind it, which then stands still (`Units3D.FrozenArmoredStallsPass`); or the same enemy behind one that escapes with the last life, which leaves the game running at 0 lives (`Game3D.FrozenArmoredDelaysGameOver`) | the freeze only changes the colour: every enemy moves, the projectiles fly and the game ends when lives reach 0 | high, not executed | Units3D.MarchAsWritten, Game3D.TickAsWritten | Units3D.MarchAll, Game3D.Tick |

=== FILE: crops.dfy ===
/**
 * One crop of the farm side-game (the `Crop` class of tower_defend/js/farm.js):
 * its catalogue entry, the water/growth/death step, watering, harvest value and
 * death.  Wall-clock time (`Date.now()`) is an explicit `now` in milliseconds.
 */
module Crops {

  datatype CropKind = Carrot | Wheat | Pumpkin

  /** The per-kind catalogue entry; times are in milliseconds. */
  datatype CropSpec = CropSpec(cost: int, growTime: int, waterInterval: int, baseValue: int, stages: int)

  function Spec(k: CropKind): (s: CropSpec)
    ensures s.cost > 0 && s.growTime > 0 && s.waterInterval > 0 && s.baseValue > 0 && s.stages > 0
  {
    match k
    case Carrot => CropSpec(10, 60000, 5000, 25, 3)
    case Wheat => CropSpec(15, 90000, 7000, 40, 4)
    case Pumpkin => CropSpec(25, 120000, 10000, 70, 5)
  }

  const FullWater: real := 100.0
  /** Water added by one watering. */
  const WaterBoost: real := 30.0
  /** Water lost per overdue second. */
  const DrainPerSecond: real := 2.0
  /** A crop is critical once it has gone this many water intervals unwatered. */
  const CriticalFactor: int := 3
  /** Growth credited per healthy update (one 60 fps frame, in milliseconds). */
  const GrowthPerUpdate: real := 1000.0 / 60.0
  /** Above this water level the crop grows. */
  const HealthyWater: real := 50.0

  datatype Crop = Crop(
    kind: CropKind,
    stage: int,
    lastWatered: int,
    plantedAt: int,
    alive: bool,
    waterLevel: real,
    growth: real,
    lastUpdate: int)

  /** The constructor: stage 0, full water, all clocks at `now`. */
  function NewCrop(k: CropKind, now: int): (c: Crop)
    ensures c.alive && c.stage == 0 && c.waterLevel == FullWater && c.growth == 0.0
    ensures c.kind == k && c.lastWatered == now && c.plantedAt == now && c.lastUpdate == now
  {
    Crop(k, 0, now, now, true, FullWater, 0.0, now)
  }

  predicate WaterInRange(c: Crop)
  {
    0.0 <= c.waterLevel <= FullWater
  }

  /** Milliseconds of growth needed for one stage. */
  function StageTime(k: CropKind): (t: real)
    ensures t > 0.0
  {
    (Spec(k).growTime as real) / (Spec(k).stages as real)
  }

  /** Unwatered for longer than the kind's water interval. */
  predicate Thirsty(c: Crop, now: int)
  {
    now - c.lastWatered > Spec(c.kind).waterInterval
  }

  /** Unwatered for longer than three water intervals. */
  predicate Critical(c: Crop, now: int)
  {
    now - c.lastWatered > CriticalFactor * Spec(c.kind).waterInterval
  }

  lemma CriticalIsThirsty(c: Crop, now: int)
    requires Critical(c, now)
    ensures Thirsty(c, now)
  {
  }

  function Max(a: real, b: real): real { if a >= b then a else b }
  function Min(a: real, b: real): real { if a <= b then a else b }

  /** The water level after the overdue drain for the time since the last update. */
  function Drained(c: Crop, now: int): (w: real)
    ensures w >= 0.0
    ensures now >= c.lastUpdate ==> w <= Max(c.waterLevel, 0.0)
  {
    var dt := (now - c.lastUpdate) as real;
    Max(0.0, c.waterLevel - (dt / 1000.0) * DrainPerSecond)
  }

  /** `die`. */
  function Die(c: Crop): (r: Crop)
    ensures !r.alive && r == c.(alive := false)
  {
    c.(alive := false)
  }

  datatype Updated = Updated(crop: Crop, ready: bool)

  /**
   * `update`: drain water when overdue, die when critical and dry, otherwise
   * grow while healthy and advance at most one stage.  `ready` is the
   * returned flag: raised whenever the stage advances to or past the last one
   * (the stage is not capped, so a crop left unharvested keeps advancing).
   */
  function Update(c: Crop, now: int): (r: Updated)
    ensures !c.alive ==> r == Updated(c, false)
    ensures c.waterLevel >= 0.0 ==> r.crop.waterLevel >= 0.0
    ensures c.alive ==>
      (!r.crop.alive <==> Critical(c, now) && Thirsty(c, now) && Drained(c, now) <= 0.0)
    ensures !r.crop.alive ==> !r.ready
    ensures r.crop.stage == c.stage || r.crop.stage == c.stage + 1
    ensures r.crop.stage == c.stage + 1 ==> c.alive && r.crop.waterLevel > HealthyWater
    ensures r.ready <==> c.alive && r.crop.stage == c.stage + 1 && r.crop.stage >= Spec(c.kind).stages
    ensures c.alive ==> r.crop.lastUpdate == now
    ensures r.crop.waterLevel == (if c.alive && Thirsty(c, now) then Drained(c, now) else c.waterLevel)
    ensures r.crop.kind == c.kind && r.crop.lastWatered == c.lastWatered && r.crop.plantedAt == c.plantedAt
  {
    if !c.alive then Updated(c, false)
    else
      var c1 := c.(lastUpdate := now);
      var c2 := if Thirsty(c, now) then c1.(waterLevel := Drained(c, now)) else c1;
      if Thirsty(c, now) && Critical(c, now) && c2.waterLevel <= 0.0 then
        Updated(Die(c2), false)
      else if c2.waterLevel > HealthyWater then
        var g := c2.growth + GrowthPerUpdate;
        if g >= StageTime(c.kind) then
          var c3 := c2.(growth := 0.0, stage := c2.stage + 1);
          Updated(c3, c3.stage >= Spec(c.kind).stages)
        else Updated(c2.(growth := g), false)
      else Updated(c2, false)
  }

  /** With a clock that does not run backwards, an update keeps the water level in range. */
  lemma UpdateKeepsWaterInRange(c: Crop, now: int)
    requires WaterInRange(c) && now >= c.lastUpdate
    ensures WaterInRange(Update(c, now).crop)
    ensures Update(c, now).crop.waterLevel <= c.waterLevel
  {
  }

  /** A crop that still holds water, or has not been dry for three intervals, survives the update. */
  lemma WateredCropSurvives(c: Crop, now: int)
    requires c.alive
    requires !Critical(c, now) || (now >= c.lastUpdate && c.waterLevel - ((now - c.lastUpdate) as real / 1000.0) * DrainPerSecond > 0.0)
    ensures Update(c, now).crop.alive
  {
  }

  datatype Watered = Watered(crop: Crop, ok: bool)

  /** `water`: refused for a dead crop; otherwise resets the water clock and adds 30, capped at 100. */
  function Water(c: Crop, now: int): (r: Watered)
    ensures r.ok <==> c.alive
    ensures !r.ok ==> r.crop == c
    ensures r.ok ==>
      && r.crop.lastWatered == now
      && r.crop.waterLevel == Min(FullWater, c.waterLevel + WaterBoost)
      && r.crop == c.(lastWatered := now, waterLevel := r.crop.waterLevel)
  {
    if !c.alive then Watered(c, false)
    else Watered(c.(lastWatered := now, waterLevel := Min(FullWater, c.waterLevel + WaterBoost)), true)
  }

  /** Watering keeps the level in range and never lowers it. */
  lemma WaterKeepsRange(c: Crop, now: int)
    requires WaterInRange(c)
    ensures WaterInRange(Water(c, now).crop)
    ensures Water(c, now).crop.waterLevel >= c.waterLevel
  {
  }

  /** Watering a crop right after it was watered cannot make it critical. */
  lemma WateredIsNotCritical(c: Crop, now: int)
    requires c.alive
    ensures !Critical(Water(c, now).crop, now) && !Thirsty(Water(c, now).crop, now)
  {
  }

  /** The crop has reached its last stage and can be sold. */
  predicate Mature(c: Crop)
  {
    c.alive && c.stage >= Spec(c.kind).stages
  }

  /** `harvest`: 0 unless mature, otherwise the base value plus one per ten points of water. */
  function HarvestValue(c: Crop): (v: int)
    ensures !Mature(c) ==> v == 0
    ensures Mature(c) ==>
      v - Spec(c.kind).baseValue == (c.waterLevel / 10.0).Floor
  {
    if !c.alive || c.stage < Spec(c.kind).stages then 0
    else Spec(c.kind).baseValue + (c.waterLevel / 10.0).Floor
  }

  /** For a crop whose water is in range, the value is positive exactly when it is mature, and the care bonus is at most 10. */
  lemma HarvestValueBounds(c: Crop)
    requires WaterInRange(c)
    ensures HarvestValue(c) > 0 <==> Mature(c)
    ensures Mature(c) ==>
      Spec(c.kind).baseValue <= HarvestValue(c) <= Spec(c.kind).baseValue + 10
  {
    if Mature(c) {
      var q := c.waterLevel / 10.0;
      assert 0.0 <= q <= 10.0;
      assert 0 <= q.Floor <= 10;
    }
  }

  /** An update that reports the crop ready leaves it sellable. */
  lemma ReadyIsMature(c: Crop, now: int)
    requires Update(c, now).ready
    ensures Mature(Update(c, now).crop)
  {
  }

  /** Death is final: a dead crop is unchanged by updates, refuses water and sells for nothing. */
  lemma DeathIsFinal(c: Crop, now: int)
    requires !c.alive
    ensures Update(c, now).crop == c
    ensures !Water(c, now).ok && Water(c, now).crop == c
    ensures HarvestValue(c) == 0
  {
  }
}

=== FILE: farm.dfy ===
/**
 * The farm side-game's actions (tower_defend/js/farm.js): planting,
 * watering and harvesting on the bounded grid, the water-warning throttle
 * and the farm frame.  `money` is the same global the combat side spends;
 * the grid and the crop list hold the same crops and are modelled once, as
 * a map from tile to crop.
 */
module Farm {
  import opened Crops
  import opened FarmGrid

  /** Water costs 5 per watering. */
  const WaterCost: int := 5
  const PlantCostMultiplier: real := 1.0
  /** At most one warning per 10 seconds. */
  const WarningInterval: int := 10000
  const MaxWarnings: int := 3

  datatype Farm = Farm(
    farmMode: bool,
    money: int,
    crops: map<FarmCell, Crop>,
    lastWaterWarning: int,
    waterWarningCount: int,
    moneyEarned: int,
    cropsHarvested: int)

  /** Crops only on the grid, warnings within their cap. */
  predicate Valid(f: Farm)
  {
    && (forall c :: c in f.crops ==> InBounds(c))
    && 0 <= f.waterWarningCount <= MaxWarnings
  }

  /** `floor(cost * plantCostMultiplier)`. */
  function PlantCost(k: CropKind): (cost: int)
    ensures cost == Spec(k).cost
  {
    ((Spec(k).cost as real) * PlantCostMultiplier).Floor
  }

  datatype Planted = Planted(farm: Farm, ok: bool)

  /** `plantCrop`. */
  function Plant(f: Farm, k: CropKind, cell: FarmCell, now: int): (r: Planted)
    ensures r.ok <==>
      f.farmMode && InBounds(cell) && cell !in f.crops && f.money >= PlantCost(k)
    ensures !r.ok ==> r.farm == f
    ensures r.ok ==>
      && r.farm.money == f.money - PlantCost(k)
      && r.farm.crops == f.crops[cell := NewCrop(k, now)]
      && r.farm == f.(money := r.farm.money, crops := r.farm.crops)
  {
    if !f.farmMode || !InBounds(cell) || cell in f.crops || f.money < PlantCost(k) then
      Planted(f, false)
    else
      Planted(f.(money := f.money - PlantCost(k), crops := f.crops[cell := NewCrop(k, now)]), true)
  }

  datatype WaterResult = WaterResult(farm: Farm, ok: bool)

  /** `waterCrop`. */
  function WaterAt(f: Farm, cell: FarmCell, now: int): (r: WaterResult)
    ensures r.ok <==>
      f.farmMode && InBounds(cell) && cell in f.crops && f.crops[cell].alive && f.money >= WaterCost
    ensures !r.ok ==> r.farm == f
    ensures r.ok ==>
      && r.farm.money == f.money - WaterCost
      && r.farm.crops == f.crops[cell := Water(f.crops[cell], now).crop]
      && r.farm.crops[cell].waterLevel == Min(FullWater, f.crops[cell].waterLevel + WaterBoost)
      && r.farm == f.(money := r.farm.money, crops := r.farm.crops)
  {
    if !f.farmMode || !InBounds(cell) || cell !in f.crops || !f.crops[cell].alive
       || f.money < WaterCost then
      WaterResult(f, false)
    else
      WaterResult(f.(money := f.money - WaterCost,
                     crops := f.crops[cell := Water(f.crops[cell], now).crop]), true)
  }

  datatype Harvested = Harvested(farm: Farm, value: int)

  /** `harvestCrop`. */
  function HarvestAt(f: Farm, cell: FarmCell): (r: Harvested)
    ensures r.value == (if f.farmMode && InBounds(cell) && cell in f.crops
                        then HarvestValue(f.crops[cell]) else 0)
    ensures r.value <= 0 ==> r.farm == f
    ensures r.value > 0 ==>
      && cell in f.crops
      && r.farm.money == f.money + r.value
      && r.farm.moneyEarned == f.moneyEarned + r.value
      && r.farm.cropsHarvested == f.cropsHarvested + 1
      && r.farm.crops == f.crops - {cell}
      && r.farm == f.(money := r.farm.money, moneyEarned := r.farm.moneyEarned,
                      cropsHarvested := r.farm.cropsHarvested, crops := r.farm.crops)
  {
    if !f.farmMode || !InBounds(cell) || cell !in f.crops || !f.crops[cell].alive then
      Harvested(f, 0)
    else
      var value := HarvestValue(f.crops[cell]);
      if value > 0 then
        Harvested(f.(money := f.money + value, moneyEarned := f.moneyEarned + value,
                     cropsHarvested := f.cropsHarvested + 1, crops := f.crops - {cell}), value)
      else Harvested(f, value)
  }

  /** Harvesting pays only for a mature crop (water in range), and then frees the tile. */
  lemma HarvestPaysForMature(f: Farm, cell: FarmCell)
    requires cell in f.crops && WaterInRange(f.crops[cell])
    requires f.farmMode && InBounds(cell)
    ensures HarvestAt(f, cell).value > 0 <==> Mature(f.crops[cell])
    ensures Mature(f.crops[cell]) ==> cell !in HarvestAt(f, cell).farm.crops
  {
    HarvestValueBounds(f.crops[cell]);
  }

  /** A tile holding a dead crop is blocked for good: nothing can be planted, watered or harvested there. */
  lemma DeadCropBlocksTile(f: Farm, cell: FarmCell, k: CropKind, now: int)
    requires cell in f.crops && !f.crops[cell].alive
    ensures !Plant(f, k, cell, now).ok
    ensures !WaterAt(f, cell, now).ok
    ensures HarvestAt(f, cell).value == 0 && HarvestAt(f, cell).farm == f
    ensures cell in Tick(f, now).crops && !Tick(f, now).crops[cell].alive
  {
    DeathIsFinal(f.crops[cell], now);
  }

  /** The crops that have gone three water intervals without water. */
  function CriticalCrops(f: Farm, now: int): (s: set<FarmCell>)
    ensures forall c :: c in s <==> c in f.crops && f.crops[c].alive && Critical(f.crops[c], now)
  {
    set c | c in f.crops && f.crops[c].alive && Critical(f.crops[c], now)
  }

  /** The crops overdue for water. */
  function ThirstyCrops(f: Farm, now: int): (s: set<FarmCell>)
    ensures forall c :: c in s <==> c in f.crops && f.crops[c].alive && Thirsty(f.crops[c], now)
  {
    set c | c in f.crops && f.crops[c].alive && Thirsty(f.crops[c], now)
  }

  /** Every critical crop is also overdue, so the `needsWater` test adds nothing to the critical one. */
  lemma CriticalWithinThirsty(f: Farm, now: int)
    ensures CriticalCrops(f, now) <= ThirstyCrops(f, now)
  {
    forall c | c in CriticalCrops(f, now)
      ensures c in ThirstyCrops(f, now)
    {
      CriticalIsThirsty(f.crops[c], now);
    }
  }

  /** `checkWaterNeeds`: a throttled warning when some live crop is critical. */
  function CheckWaterNeeds(f: Farm, now: int): (r: Farm)
    ensures r == f || r == f.(lastWaterWarning := now, waterWarningCount := f.waterWarningCount + 1)
    ensures r != f ==>
      && now - f.lastWaterWarning >= WarningInterval
      && f.waterWarningCount < MaxWarnings
      && exists c :: c in f.crops && f.crops[c].alive && Critical(f.crops[c], now)
    ensures (now - f.lastWaterWarning >= WarningInterval && f.waterWarningCount < MaxWarnings
             && CriticalCrops(f, now) != {}) ==> r.waterWarningCount == f.waterWarningCount + 1
    ensures f.waterWarningCount <= MaxWarnings ==> r.waterWarningCount <= MaxWarnings
  {
    if now - f.lastWaterWarning < WarningInterval || f.waterWarningCount >= MaxWarnings then f
    else
      CriticalWithinThirsty(f, now);
      var needsWater := ThirstyCrops(f, now) != {};
      var critical := CriticalCrops(f, now);
      if needsWater && critical != {} then
        f.(lastWaterWarning := now, waterWarningCount := f.waterWarningCount + 1)
      else f
  }

  /**
   * The warning counter is never reset by the farm (only a new game clears it),
   * so once three warnings were shown no frame warns again, however dry the crops.
   */
  lemma WarningCapIsFinal(f: Farm, now: int)
    requires f.waterWarningCount >= MaxWarnings
    ensures CheckWaterNeeds(f, now) == f
    ensures Tick(f, now).waterWarningCount == f.waterWarningCount
    ensures Tick(f, now).lastWaterWarning == f.lastWaterWarning
  {
  }

  /** Two warnings are always at least the reminder interval apart. */
  lemma WarningsSpaced(f: Farm, now1: int, now2: int)
    requires CheckWaterNeeds(f, now1) != f
    requires CheckWaterNeeds(CheckWaterNeeds(f, now1), now2) != CheckWaterNeeds(f, now1)
    ensures now2 - now1 >= WarningInterval
  {
  }

  /** Updates every crop (the order does not matter: crops are independent). */
  function UpdateAll(crops: map<FarmCell, Crop>, now: int): (r: map<FarmCell, Crop>)
    ensures r.Keys == crops.Keys
    ensures forall c :: c in r ==> r[c] == Update(crops[c], now).crop
  {
    map c | c in crops :: Update(crops[c], now).crop
  }

  /** One `farmLoop` frame: nothing happens outside farm mode. */
  function Tick(f: Farm, now: int): (r: Farm)
    ensures !f.farmMode ==> r == f
    ensures r.crops.Keys == f.crops.Keys
    ensures r.money == f.money && r.moneyEarned == f.moneyEarned
    ensures f.farmMode ==> forall c :: c in r.crops ==> r.crops[c] == Update(f.crops[c], now).crop
  {
    if !f.farmMode then f
    else CheckWaterNeeds(f.(crops := UpdateAll(f.crops, now)), now)
  }

  /** Each action and the frame keep the farm well formed. */
  lemma ActionsPreserveValid(f: Farm, k: CropKind, cell: FarmCell, now: int)
    requires Valid(f)
    ensures Valid(Plant(f, k, cell, now).farm)
    ensures Valid(WaterAt(f, cell, now).farm)
    ensures Valid(HarvestAt(f, cell).farm)
    ensures Valid(Tick(f, now))
  {
  }

  /** All crops' water levels in range, and no crop updated later than `now`. */
  predicate Healthy(f: Farm, now: int)
  {
    forall c :: c in f.crops ==> WaterInRange(f.crops[c]) && f.crops[c].lastUpdate <= now
  }

  /** With a clock that does not run backwards, the frame keeps every water level in range. */
  lemma TickKeepsWaterInRange(f: Farm, now: int, later: int)
    requires Healthy(f, now) && now <= later
    ensures Healthy(Tick(f, now), later)
  {
    var r := Tick(f, now);
    forall c | c in r.crops
      ensures WaterInRange(r.crops[c]) && r.crops[c].lastUpdate <= later
    {
      if f.farmMode {
        UpdateKeepsWaterInRange(f.crops[c], now);
      }
    }
  }
}

=== FILE: farmgrid.dfy ===
/**
 * The farm field (tower_defend/js/farm.js): a 15 x 20 grid of tiles grouped
 * into 3 x 3 plots separated by one tile of spacing, and the mapping
 * `pixelToFarmCell` from a canvas click to a tile.
 */
module FarmGrid {
  import opened Kinds

  const Rows: int := 15
  const Cols: int := 20
  const TileSize: int := 40
  const PlotSize: int := 3
  const PlotSpacing: int := 1
  /** Tiles from one plot's start to the next one's. */
  const PlotStride: int := PlotSize + PlotSpacing
  /** Pixels from one plot's start to the next one's (160). */
  const PlotPixels: int := PlotSize * TileSize + PlotSpacing * TileSize

  datatype FarmCell = FarmCell(row: int, col: int)

  predicate InBounds(c: FarmCell)
  {
    0 <= c.row < Rows && 0 <= c.col < Cols
  }

  /** The tile lies inside a plot's 3 x 3 planting area, not in the spacing. */
  predicate InPlot(c: FarmCell)
  {
    c.row >= 0 && c.col >= 0 && c.row % PlotStride < PlotSize && c.col % PlotStride < PlotSize
  }

  /** `farmLayout`: the pixel offset of the plot block and the plot counts. */
  datatype Layout = Layout(offsetX: real, offsetY: real, plotsPerRow: int, plotsPerCol: int)

  /** The layout before the farm is first drawn. */
  const Unset: Layout := Layout(0.0, 0.0, 0, 0)

  /** The layout `drawFarm` computes for a canvas of the given size: 5 x 3 plots, centred. */
  function Drawn(width: real, height: real): (l: Layout)
    ensures l.plotsPerRow == 5 && l.plotsPerCol == 3
    ensures l.offsetX + (l.plotsPerRow * PlotPixels) as real / 2.0 == width / 2.0
    ensures l.offsetY + (l.plotsPerCol * PlotPixels) as real / 2.0 == height / 2.0
  {
    var perRow := Cols / PlotStride;
    var perCol := Rows / PlotStride;
    Layout((width - (perRow * PlotPixels) as real) / 2.0,
           (height - (perCol * PlotPixels) as real) / 2.0, perRow, perCol)
  }

  /** Pixel distance of a tile's left (or top) edge from the layout origin. */
  function Edge(i: int): real
    requires i >= 0
  {
    ((i / PlotStride) * PlotPixels + (PlotSpacing * TileSize) / 2 + (i % PlotStride) * TileSize) as real
  }

  /** `a/d` rounded down brackets `a` between two multiples of `d`. */
  lemma FloorBracket(a: real, d: real)
    requires d > 0.0
    ensures ((a / d).Floor as real) * d <= a < ((a / d).Floor as real) * d + d
  {
    var q := a / d;
    var f := q.Floor as real;
    assert f <= q < f + 1.0;
    assert a == q * d;
    MulLe(f, q, d);
    MulLt(q, f + 1.0, d);
    assert (f + 1.0) * d == f * d + d;
    assert a < f * d + d;
  }

  lemma MulLe(x: real, y: real, d: real)
    requires d > 0.0 && x <= y
    ensures x * d <= y * d
  {
  }

  lemma MulLt(x: real, y: real, d: real)
    requires d > 0.0 && x < y
    ensures x * d < y * d
  {
  }

  lemma AddOneTimes(x: real, d: real)
    ensures (x + 1.0) * d == x * d + d
  {
  }

  /** Multiplying by a positive factor reflects strict order back. */
  lemma LtOfMul(x: real, y: real, d: real)
    requires d > 0.0 && x * d < y * d
    ensures x < y
  {
    if x >= y {
      MulLe(y, x, d);
    }
  }

  /** Two numbers whose multiples of `d` both bracket `a` are less than 1 apart. */
  lemma BracketClose(a: real, d: real, x: real, y: real)
    requires d > 0.0
    requires x * d <= a < x * d + d
    requires y * d <= a < y * d + d
    ensures y < x + 1.0
  {
    AddOneTimes(x, d);
    LtOfMul(y, x + 1.0, d);
  }

  /** Two integers whose multiples of `d` both bracket `a` are equal. */
  lemma BracketUnique(a: real, d: real, f: int, k: int)
    requires d > 0.0
    requires (f as real) * d <= a < (f as real) * d + d
    requires (k as real) * d <= a < (k as real) * d + d
    ensures f == k
  {
    BracketClose(a, d, f as real, k as real);
    BracketClose(a, d, k as real, f as real);
  }

  /** The unique integer bracketing `a` is its floor quotient. */
  lemma FloorUnique(a: real, d: real, k: int)
    requires d > 0.0
    requires (k as real) * d <= a < (k as real) * d + d
    ensures (a / d).Floor == k
  {
    FloorBracket(a, d);
    BracketUnique(a, d, (a / d).Floor, k);
  }

  /** `pixelToFarmCell`: None is JavaScript's `null`. */
  function PixelToCell(l: Layout, x: real, y: real): Option<FarmCell>
  {
    var relX := x - l.offsetX;
    var relY := y - l.offsetY;
    if relX < 0.0 || relY < 0.0 then None
    else
      var plotCol := (relX / PlotPixels as real).Floor;
      var plotRow := (relY / PlotPixels as real).Floor;
      if plotCol < 0 || plotCol >= l.plotsPerRow || plotRow < 0 || plotRow >= l.plotsPerCol then None
      else
        var innerX := (plotCol * PlotPixels) as real + (PlotSpacing * TileSize) as real / 2.0;
        var innerY := (plotRow * PlotPixels) as real + (PlotSpacing * TileSize) as real / 2.0;
        var localX := relX - innerX;
        var localY := relY - innerY;
        if localX < 0.0 || localY < 0.0 then None
        else
          var c := (localX / TileSize as real).Floor;
          var r := (localY / TileSize as real).Floor;
          if c < 0 || c >= PlotSize || r < 0 || r >= PlotSize then None
          else
            var globalRow := plotRow * PlotStride + r;
            var globalCol := plotCol * PlotStride + c;
            if globalRow < 0 || globalRow >= Rows || globalCol < 0 || globalCol >= Cols then None
            else Some(FarmCell(globalRow, globalCol))
  }

  /**
   * A tile returned for a click is on the grid, inside a plot, and the click
   * lies on that tile.
   */
  lemma PixelToCellSound(l: Layout, x: real, y: real)
    requires PixelToCell(l, x, y).Some?
    ensures InBounds(PixelToCell(l, x, y).value) && InPlot(PixelToCell(l, x, y).value)
    ensures var c := PixelToCell(l, x, y).value;
      && Edge(c.col) <= x - l.offsetX < Edge(c.col) + TileSize as real
      && Edge(c.row) <= y - l.offsetY < Edge(c.row) + TileSize as real
  {
    var relX := x - l.offsetX;
    var relY := y - l.offsetY;
    var plotCol := (relX / 160.0).Floor;
    var plotRow := (relY / 160.0).Floor;
    var localX := relX - ((plotCol * 160) as real + 20.0);
    var localY := relY - ((plotRow * 160) as real + 20.0);
    var c := (localX / 40.0).Floor;
    var r := (localY / 40.0).Floor;
    FloorBracket(localX, 40.0);
    FloorBracket(localY, 40.0);
    var cell := PixelToCell(l, x, y).value;
    assert cell == FarmCell(plotRow * 4 + r, plotCol * 4 + c);
    assert cell.col / 4 == plotCol && cell.col % 4 == c;
    assert cell.row / 4 == plotRow && cell.row % 4 == r;
  }

  /** Clicking the centre of a plot tile inside the layout selects that tile. */
  lemma CentreSelectsCell(l: Layout, cell: FarmCell)
    requires InBounds(cell) && InPlot(cell)
    requires cell.col / PlotStride < l.plotsPerRow && cell.row / PlotStride < l.plotsPerCol
    ensures PixelToCell(l, l.offsetX + Edge(cell.col) + 20.0, l.offsetY + Edge(cell.row) + 20.0)
            == Some(cell)
  {
    var x := l.offsetX + Edge(cell.col) + 20.0;
    var y := l.offsetY + Edge(cell.row) + 20.0;
    var qc, mc := cell.col / 4, cell.col % 4;
    var qr, mr := cell.row / 4, cell.row % 4;
    assert x - l.offsetX == (qc * 160) as real + 40.0 + (mc * 40) as real;
    assert y - l.offsetY == (qr * 160) as real + 40.0 + (mr * 40) as real;
    FloorUnique(x - l.offsetX, 160.0, qc);
    FloorUnique(y - l.offsetY, 160.0, qr);
    FloorUnique(20.0 + (mc * 40) as real, 40.0, mc);
    FloorUnique(20.0 + (mr * 40) as real, 40.0, mr);
  }

  /** Before the first draw every click misses. */
  lemma UnsetSelectsNothing(x: real, y: real)
    ensures PixelToCell(Unset, x, y) == None
  {
  }

  /**
   * With the drawn layout a click reaches only tiles of rows 0-10 and columns
   * 0-18: rows 12-14 and column 19 lie outside the 5 x 3 plots.  The converse,
   * that every plot tile is reached, is `CentreSelectsCell`.
   */
  lemma DrawnReach(width: real, height: real, x: real, y: real)
    requires PixelToCell(Drawn(width, height), x, y).Some?
    ensures var c := PixelToCell(Drawn(width, height), x, y).value;
      0 <= c.row <= 10 && 0 <= c.col <= 18
  {
    PixelToCellSound(Drawn(width, height), x, y);
  }
}

=== FILE: game3d.dfy ===
/**
 * The game state and frame loop of the 3D variant
 * (tower_defend/js/game3d.js): its own wave scheduler with hard-coded
 * numbers (10 + 2w enemies, one every 51 frames, reward 100 + 20w), tower
 * placement on the snapped grid, and the ordered frame: wave logic, towers,
 * enemies, projectiles, game-over check.
 */
module Game3D {
  import opened Kinds
  import opened Grid3D
  import opened Units3D
  import Ledger

  const InitialLives: int := 20
  const InitialMoney: int := 175
  /** A spawn needs the spawn timer to exceed this many frames. */
  const SpawnGap: int := 50

  datatype Game = Game(
    running: bool,
    lives: int,
    money: int,
    wave: int,
    previewShown: bool,
    waveActive: bool,
    toSpawn: int,
    spawned: int,
    spawnTimer: int,
    towers: seq<Tower>,
    enemies: seq<Enemy>,
    projectiles: seq<Projectile>,
    stats: Ledger.Stats,
    occupied: map<Cell, TowerKind>,
    nextId: nat)

  /** Enemies in wave `w`. */
  function WaveSize(w: int): int
  {
    10 + 2 * w
  }

  /** Money paid when wave `w` is cleared. */
  function WaveReward(w: int): int
  {
    100 + 20 * w
  }

  /** The well-formedness invariant: `Initial` satisfies it and every operation below keeps it. */
  predicate Valid(g: Game)
  {
    && g.wave >= 1
    && 0 <= g.spawned <= g.toSpawn
    && (g.waveActive ==> g.toSpawn == WaveSize(g.wave))
    && (forall t :: t in g.towers ==> 1 <= t.level <= MaxLevel)
    && DistinctIds(g.enemies)
    && (forall id :: id in Ids(g.enemies) ==> id < g.nextId)
    && Ledger.Consistent(g.stats)
  }

  /** The module-level initial values, before `startGame`. */
  const Initial: Game :=
    Game(false, InitialLives, InitialMoney, 1, false, false, 0, 0, 0, [], [], [],
         Ledger.Zero(), map[], 0 as nat)

  /** A state with no wave in progress, no units and a consistent ledger is well formed. */
  lemma IdleValid(g: Game)
    requires g.wave >= 1 && g.spawned == 0 && g.toSpawn == 0 && !g.waveActive
    requires |g.towers| == 0 && |g.enemies| == 0 && Ledger.Consistent(g.stats)
    ensures Valid(g)
  {
  }

  /** The initial state is well formed. */
  lemma InitialValid()
    ensures Valid(Initial)
  {
    IdleValid(Initial);
  }

  /** `startGame`, as far as the simulation is concerned. */
  function StartGame(g: Game): (r: Game)
    ensures r.running && r == g.(running := true)
  {
    g.(running := true)
  }

  // ---------------------------------------------------------------------
  // Rosters
  // ---------------------------------------------------------------------

  /** The kinds announced by the 3D `showWaveNotification`. */
  function PreviewRoster(n: int): (r: seq<EnemyKind>)
    ensures |r| > 0 && r[0] == Normal
  {
    if n <= 2 then [Normal]
    else if n <= 5 then [Normal, Fast, Armored]
    else if n <= 10 then [Normal, Fast, Armored, Flying]
    else [Normal, Fast, Armored, Flying]
  }

  /** The kinds the spawner draws from (the `types` array of the frame loop). */
  function SpawnKinds(w: int): (r: seq<EnemyKind>)
    ensures 0 < |r| <= 4
  {
    if w <= 2 then [Normal]
    else if w <= 5 then [Normal, Fast, Armored]
    else [Normal, Fast, Armored, Flying]
  }

  /** The spawner never draws a kind the preview did not announce, and vice versa. */
  lemma SpawnKindsMatchPreview(w: int)
    ensures forall k :: k in SpawnKinds(w) <==> k in PreviewRoster(w)
  {
  }

  /** `types[Math.floor(Math.random() * types.length)]`, with `rand` in [0, 1). */
  function PickKind(kinds: seq<EnemyKind>, rand: real): (k: EnemyKind)
    requires |kinds| > 0
    requires 0.0 <= rand < 1.0
    ensures k in kinds
  {
    var n := |kinds| as real;
    assert rand * n < n by {
      assert (1.0 - rand) * n > 0.0;
    }
    kinds[(rand * n).Floor]
  }

  // ---------------------------------------------------------------------
  // Wave button
  // ---------------------------------------------------------------------

  /** `startNextWave`. */
  function StartNextWave(g: Game): (r: Game)
    ensures g.waveActive ==> r == g
    ensures !g.waveActive ==>
      && r.waveActive && !r.previewShown && r.spawned == 0 && r.spawnTimer == 0
      && r.toSpawn == WaveSize(g.wave)
      && r == g.(waveActive := true, previewShown := false, spawned := 0, spawnTimer := 0,
                 toSpawn := r.toSpawn)
  {
    if g.waveActive then g
    else g.(waveActive := true, spawned := 0, previewShown := false,
            toSpawn := WaveSize(g.wave), spawnTimer := 0)
  }

  datatype Press = Press(game: Game, preview: Option<seq<EnemyKind>>)

  /** `handleWaveButtonClick`: preview, then start; ignored during a wave. */
  function PressWaveButton(g: Game): (r: Press)
    ensures g.waveActive ==> r == Press(g, None)
    ensures r.preview.Some? <==> !g.previewShown && !g.waveActive
    ensures r.preview.Some? ==>
      r.preview.value == PreviewRoster(g.wave) && r.game == g.(previewShown := true)
    ensures g.previewShown && !g.waveActive ==>
      r.game.waveActive && !r.game.previewShown && r.game.spawned == 0
      && r.game.toSpawn == WaveSize(g.wave)
      && r.game == StartNextWave(g)
  {
    if !g.previewShown && !g.waveActive then
      Press(g.(previewShown := true), Some(PreviewRoster(g.wave)))
    else if g.previewShown && !g.waveActive then
      Press(StartNextWave(g), None)
    else
      Press(g, None)
  }

  // ---------------------------------------------------------------------
  // Placement (the click listener)
  // ---------------------------------------------------------------------

  datatype Outcome = Placed | Occupied | TooPoor | OutsideArea | Ignored

  datatype Placement = Placement(game: Game, outcome: Outcome)

  /**
   * A click at ground point `aim` with tower kind `selected` chosen; `clicks`
   * is the click count of the event (only a double click places).
   */
  function Place(g: Game, selected: Option<TowerKind>, clicks: int, aim: Spot,
                 catalog: TowerKind -> TowerSpec): (r: Placement)
    ensures r.outcome != Placed ==> r.game == g
    ensures r.outcome == Placed <==>
      && g.running && selected.Some? && clicks == 2
      && WorldToGrid(aim) !in g.occupied
      && g.money >= catalog(selected.value).cost
      && InBuildArea(GridToWorld(WorldToGrid(aim)))
    ensures r.outcome == Occupied ==> WorldToGrid(aim) in g.occupied
    ensures r.outcome == Placed ==>
      var cell := WorldToGrid(aim);
      var kind := selected.value;
      && r.game.money == g.money - catalog(kind).cost
      && r.game.occupied == g.occupied[cell := kind]
      && r.game.towers == g.towers + [NewTower(GridToWorld(cell), kind, catalog(kind))]
      && r.game == g.(money := r.game.money, occupied := r.game.occupied, towers := r.game.towers)
  {
    if !g.running || selected.None? || clicks != 2 then Placement(g, Ignored)
    else
      var cell := WorldToGrid(aim);
      var kind := selected.value;
      if cell in g.occupied then Placement(g, Occupied)
      else
        var spot := GridToWorld(cell);
        var cost := catalog(kind).cost;
        if g.money >= cost && InBuildArea(spot) then
          Placement(g.(money := g.money - cost,
                       towers := g.towers + [NewTower(spot, kind, catalog(kind))],
                       occupied := g.occupied[cell := kind]), Placed)
        else if g.money < cost then Placement(g, TooPoor)
        else Placement(g, OutsideArea)
  }

  /** A cell is never built on twice: after a placement, the same cell is refused. */
  lemma NoDoublePlacement(g: Game, kind: TowerKind, other: TowerKind, aim: Spot, aim2: Spot,
                          catalog: TowerKind -> TowerSpec)
    requires Place(g, Some(kind), 2, aim, catalog).outcome == Placed
    requires WorldToGrid(aim2) == WorldToGrid(aim)
    ensures Place(Place(g, Some(kind), 2, aim, catalog).game, Some(other), 2, aim2, catalog).outcome
            == Occupied
  {
  }

  // ---------------------------------------------------------------------
  // The frame
  // ---------------------------------------------------------------------

  /** The spawn condition checked after the timer increment. */
  predicate SpawnDue(g: Game)
  {
    g.spawnTimer + 1 > SpawnGap && g.spawned < g.toSpawn
  }

  /** Timer increment and at most one spawn of a kind drawn with `rand`. */
  function SpawnStep(g: Game, rand: real): (r: Game)
    requires 0.0 <= rand < 1.0
    ensures SpawnDue(g) ==>
      && |r.enemies| == |g.enemies| + 1 && r.enemies[..|g.enemies|] == g.enemies
      && r.enemies[|g.enemies|] == NewEnemy(g.nextId, r.enemies[|g.enemies|].kind, g.wave)
      && r.enemies[|g.enemies|].kind in SpawnKinds(g.wave)
      && r.spawned == g.spawned + 1 && r.spawnTimer == 0 && r.nextId == g.nextId + 1
    ensures !SpawnDue(g) ==> r == g.(spawnTimer := g.spawnTimer + 1)
    ensures r == g.(enemies := r.enemies, spawned := r.spawned, spawnTimer := r.spawnTimer,
                    nextId := r.nextId)
  {
    var timer := g.spawnTimer + 1;
    if timer > SpawnGap && g.spawned < g.toSpawn then
      var e := NewEnemy(g.nextId, PickKind(SpawnKinds(g.wave), rand), g.wave);
      g.(enemies := g.enemies + [e], spawned := g.spawned + 1, spawnTimer := 0,
         nextId := g.nextId + 1)
    else g.(spawnTimer := timer)
  }

  predicate WaveCleared(g: Game)
  {
    g.spawned >= g.toSpawn && |g.enemies| == 0
  }

  /** The completion branch: pay 100 + 20w, advance the wave, reset the ledger. */
  function CompleteStep(g: Game): (r: Game)
    ensures !WaveCleared(g) ==> r == g
    ensures WaveCleared(g) ==>
      && !r.waveActive && !r.previewShown
      && r.money == g.money + WaveReward(g.wave)
      && r.wave == g.wave + 1
      && r.toSpawn == WaveSize(g.wave + 1)
      && r.stats == Ledger.Zero()
      && r == g.(waveActive := false, previewShown := false, money := r.money, wave := r.wave,
                 toSpawn := r.toSpawn, stats := r.stats)
  {
    if !WaveCleared(g) then g
    else
      g.(waveActive := false, previewShown := false, money := g.money + WaveReward(g.wave),
         wave := g.wave + 1, toSpawn := WaveSize(g.wave + 1), stats := Ledger.Zero())
  }

  /** The wave part of the frame. */
  function WavePhase(g: Game, rand: real): Game
    requires 0.0 <= rand < 1.0
  {
    if g.waveActive then CompleteStep(SpawnStep(g, rand)) else g
  }

  /**
   * One frame of `gameLoop` with the drawing and camera removed.  `rand` is
   * the `Math.random()` draw of a spawn, `pathPos` is `getPathPosition` and
   * `steer` the projectile's move towards its aim point.
   */
  function Tick(g: Game, rand: real, pathPos: real -> Spot, steer: (Vec3, Vec3) -> Vec3): (r: Game)
    requires 0.0 <= rand < 1.0
    ensures !g.running ==> r == g
    ensures g.running ==>
      var w := WavePhase(g, rand);
      && r.lives == g.lives - MarchAll(w.enemies, pathPos).escaped
      && (r.running <==> r.lives > 0)
    ensures r.lives <= g.lives
    ensures r.wave == g.wave || r.wave == g.wave + 1
    ensures r.wave == g.wave ==> r.money == g.money
    ensures r.wave == g.wave + 1 ==>
      r.money == g.money + WaveReward(g.wave) && r.stats == Ledger.Zero() && !r.waveActive
    ensures r.occupied == g.occupied && |r.towers| == |g.towers|
    ensures g.running ==>
      var w := WavePhase(g, rand);
      && (forall i :: 0 <= i < |w.towers| ==> r.towers[i] == TowerStep(w.towers[i], w.enemies).tower)
      && Ids(r.enemies) <= Ids(w.enemies)
      && |r.enemies| <= |w.enemies|
  {
    if !g.running then g
    else
      var w := WavePhase(g, rand);
      var volley := TowersStep(w.towers, w.enemies);
      var march := MarchAll(w.enemies, pathPos);
      var salvo := ProjectilesStep(w.projectiles + volley.shots, march.kept, w.stats, steer);
      var lives := w.lives - march.escaped;
      w.(towers := volley.towers, enemies := salvo.enemies, projectiles := salvo.shots,
         stats := salvo.stats, lives := lives, running := lives > 0)
  }

  /**
   * A frame in which no tower has an enemy in range and nothing is in flight
   * fires nothing: the enemies only march and the ledger is untouched.
   */
  lemma QuietFrame(g: Game, rand: real, pathPos: real -> Spot, steer: (Vec3, Vec3) -> Vec3)
    requires 0.0 <= rand < 1.0 && g.running && |g.projectiles| == 0
    requires var w := WavePhase(g, rand);
      forall t, j :: t in w.towers && 0 <= j < |w.enemies| ==> !InRange(t, w.enemies[j])
    ensures var w := WavePhase(g, rand);
      var r := Tick(g, rand, pathPos, steer);
      && r.enemies == MarchAll(w.enemies, pathPos).kept
      && r.stats == w.stats && |r.projectiles| == 0
  {
    var w := WavePhase(g, rand);
    var volley := TowersStep(w.towers, w.enemies);
    forall i | 0 <= i < |w.towers|
      ensures TowerStep(w.towers[i], w.enemies).shot.None?
    {
      assert w.towers[i] in w.towers;
      NoTargetNoShot(w.towers[i], w.enemies);
    }
    assert w.projectiles + volley.shots == [];
  }

  /**
   * The frame's combat: every shot of this frame's volley joins the
   * projectiles already in flight, and the ledger grows by exactly the damage
   * of the hits that kill. With distinct identities, the enemies that the
   * projectiles remove after the march are exactly the killed targets.
   */
  lemma TickCombat(g: Game, rand: real, pathPos: real -> Spot, steer: (Vec3, Vec3) -> Vec3)
    requires 0.0 <= rand < 1.0 && g.running
    ensures var w := WavePhase(g, rand);
      var volley := TowersStep(w.towers, w.enemies);
      var kept := MarchAll(w.enemies, pathPos).kept;
      var salvo := ProjectilesStep(w.projectiles + volley.shots, kept, w.stats, steer);
      var r := Tick(g, rand, pathPos, steer);
      && (forall i :: 0 <= i < |w.towers| && TowerStep(w.towers[i], w.enemies).shot.Some? ==>
            TowerStep(w.towers[i], w.enemies).shot.value in w.projectiles + volley.shots)
      && r.stats.total == w.stats.total + DamageSum(salvo.kills)
      && (forall k :: Ledger.Get(r.stats, k) == Ledger.Get(w.stats, k) + KindDamage(salvo.kills, k))
      && (DistinctIds(w.enemies) ==>
            Ids(r.enemies) + Targets(salvo.kills) == Ids(kept) && Ids(r.enemies) !! Targets(salvo.kills))
  {
    var w := WavePhase(g, rand);
    var volley := TowersStep(w.towers, w.enemies);
    var kept := MarchAll(w.enemies, pathPos).kept;
    VolleyComplete(w.towers, w.enemies);
    PassCredits(w.projectiles + volley.shots, kept, w.stats, steer);
    if DistinctIds(w.enemies) {
      PassRemovesKilled(w.projectiles + volley.shots, kept, w.stats, steer);
    }
  }

  /**
   * The projectiles in flight after a frame: no more than before plus the
   * volley, each one of those moved on, and, with distinct identities, every
   * projectile whose target no earlier one aims at and that flies on by
   * itself is among them.
   */
  lemma TickProjectiles(g: Game, rand: real, pathPos: real -> Spot, steer: (Vec3, Vec3) -> Vec3)
    requires 0.0 <= rand < 1.0 && g.running
    ensures var w := WavePhase(g, rand);
      var all := w.projectiles + TowersStep(w.towers, w.enemies).shots;
      var kept := MarchAll(w.enemies, pathPos).kept;
      var r := Tick(g, rand, pathPos, steer);
      && |r.projectiles| <= |all|
      && (forall q :: q in r.projectiles ==> exists p :: p in all && q.(at := p.at) == p)
      && (DistinctIds(w.enemies) ==>
            forall i :: (0 <= i < |all| && all[i].target !in Targets(all[..i])
                         && ProjectileStep(all[i], kept, w.stats, steer).shot.Some?) ==>
              ProjectileStep(all[i], kept, w.stats, steer).shot.value in r.projectiles)
  {
    var w := WavePhase(g, rand);
    var all := w.projectiles + TowersStep(w.towers, w.enemies).shots;
    var kept := MarchAll(w.enemies, pathPos).kept;
    if DistinctIds(w.enemies) {
      PassKeepsUnshared(all, kept, w.stats, steer);
    }
  }

  /**
   * A frame as written: when an enemy's update throws (see
   * `Units3D.AdvanceAsWritten`), the rest of `gameLoop` is skipped, so no
   * projectile moves or hits, the ledger stands and the game-over check does
   * not run. Without a throw it is the intended frame `Tick`.
   */
  function TickAsWritten(g: Game, rand: real, pathPos: real -> Spot,
                         steer: (Vec3, Vec3) -> Vec3): (r: Game)
    requires 0.0 <= rand < 1.0
    ensures !g.running ==> r == g
    ensures g.running && !MarchAsWritten(WavePhase(g, rand).enemies, pathPos).threw ==>
      r == Tick(g, rand, pathPos, steer)
    ensures g.running && MarchAsWritten(WavePhase(g, rand).enemies, pathPos).threw ==>
      var w := WavePhase(g, rand);
      && |r.projectiles| == |w.projectiles| + |TowersStep(w.towers, w.enemies).shots|
      && r.stats == w.stats && r.running
      && |r.enemies| + MarchAsWritten(w.enemies, pathPos).escaped == |w.enemies|
  {
    if !g.running then g
    else
      var w := WavePhase(g, rand);
      var march := MarchAsWritten(w.enemies, pathPos);
      if !march.threw then Tick(g, rand, pathPos, steer)
      else
        var volley := TowersStep(w.towers, w.enemies);
        w.(towers := volley.towers, enemies := march.kept, projectiles := w.projectiles + volley.shots,
           lives := w.lives - march.escaped)
  }

  /**
   * A frozen armored enemy behind the last life's escape: the frame as
   * written drops the lives to zero and keeps the game running, where the
   * intended frame ends it.
   */
  lemma FrozenArmoredDelaysGameOver(g: Game, rand: real, pathPos: real -> Spot,
                                    steer: (Vec3, Vec3) -> Vec3, f: Enemy, e: Enemy)
    requires 0.0 <= rand < 1.0 && g.running && !g.waveActive && g.lives == 1
    requires g.enemies == [f, e] && !f.frozen && Advance(f, pathPos).reachedEnd
    requires e.kind == Armored && e.frozen
    ensures TickAsWritten(g, rand, pathPos, steer).lives == 0
    ensures TickAsWritten(g, rand, pathPos, steer).running
    ensures !Tick(g, rand, pathPos, steer).running
  {
    assert [f, e][1..] == [e];
    assert MarchAll([f, e], pathPos).escaped == 1 + MarchAll([e], pathPos).escaped;
    assert MarchAsWritten([f, e], pathPos).escaped == 1;
  }

  /** An enemy reaching the end costs exactly one life and leaves, whatever its health. */
  lemma EscapeCostsOneLife(e: Enemy, pathPos: real -> Spot)
    requires Advance(e, pathPos).reachedEnd
    ensures MarchAll([e], pathPos) == March([], 1)
  {
    assert [e][1..] == [];
  }

  lemma DistinctSnoc(es: seq<Enemy>, e: Enemy)
    requires DistinctIds(es) && e.id !in Ids(es)
    ensures DistinctIds(es + [e])
    ensures Ids(es + [e]) == Ids(es) + {e.id}
  {
    var s := es + [e];
    forall i, j | 0 <= i < j < |s|
      ensures s[i].id != s[j].id
    {
      if j == |es| {
        assert s[i] in es;
      }
    }
  }

  lemma SpawnStepValid(g: Game, rand: real)
    requires Valid(g) && g.waveActive && 0.0 <= rand < 1.0
    ensures Valid(SpawnStep(g, rand))
  {
    if SpawnDue(g) {
      var r := SpawnStep(g, rand);
      var e := r.enemies[|g.enemies|];
      assert r.enemies == g.enemies + [e];
      DistinctSnoc(g.enemies, e);
    }
  }

  /** Every frame keeps the state well formed. */
  lemma TickPreservesValid(g: Game, rand: real, pathPos: real -> Spot,
                           steer: (Vec3, Vec3) -> Vec3)
    requires Valid(g) && 0.0 <= rand < 1.0
    ensures Valid(Tick(g, rand, pathPos, steer))
  {
    if g.running {
      if g.waveActive {
        SpawnStepValid(g, rand);
      }
      var w := WavePhase(g, rand);
      assert Valid(w);
      var volley := TowersStep(w.towers, w.enemies);
      forall t | t in volley.towers
        ensures 1 <= t.level <= MaxLevel
      {
        var i :| 0 <= i < |volley.towers| && volley.towers[i] == t;
        assert w.towers[i] in w.towers;
      }
      var march := MarchAll(w.enemies, pathPos);
      var salvo := ProjectilesStep(w.projectiles + volley.shots, march.kept, w.stats, steer);
      assert Ids(salvo.enemies) <= Ids(w.enemies);
    }
  }

  /** Placing a tower keeps the state well formed. */
  lemma PlacePreservesValid(g: Game, selected: Option<TowerKind>, clicks: int, aim: Spot,
                            catalog: TowerKind -> TowerSpec)
    requires Valid(g)
    ensures Valid(Place(g, selected, clicks, aim, catalog).game)
  {
  }

  /** Starting the game keeps the state well formed, and a stopped game does not move. */
  lemma StartGameValid(g: Game, rand: real, pathPos: real -> Spot, steer: (Vec3, Vec3) -> Vec3)
    requires 0.0 <= rand < 1.0
    ensures Valid(g) ==> Valid(StartGame(g))
    ensures !g.running ==> Tick(g, rand, pathPos, steer) == g
    ensures StartGame(g).running
  {
  }

  /** Pressing the wave button keeps the state well formed. */
  lemma PressPreservesValid(g: Game)
    requires Valid(g)
    ensures Valid(PressWaveButton(g).game)
  {
  }
}

=== FILE: grid3d.dfy ===
/**
 * Grid snapping of the 3D variant (tower_defend/js/game3d.js): the 70 x 70
 * ground is cut into 2 x 2 cells; a world point snaps to the cell under it,
 * clamped to the board, and a cell maps back to its centre.
 */
module Grid3D {

  const GridSize: int := 2
  const MapWidth: int := 70
  const MapHeight: int := 70
  const GridCols: int := MapWidth / GridSize
  const GridRows: int := MapHeight / GridSize

  /** A grid cell; it stands for the occupancy key `getGridKey(gx, gy)`. */
  datatype Cell = Cell(gx: int, gy: int)

  /** A point of the ground plane (world x and z). */
  datatype Spot = Spot(x: real, z: real)

  predicate OnBoard(c: Cell)
  {
    0 <= c.gx < GridCols && 0 <= c.gy < GridRows
  }

  function Clamp(lo: int, hi: int, v: int): (r: int)
    requires lo <= hi
    ensures lo <= r <= hi
    ensures lo <= v <= hi ==> r == v
  {
    if v < lo then lo else if v > hi then hi else v
  }

  /** `worldToGrid`: the cell containing the point, clamped onto the board. */
  function WorldToGrid(p: Spot): (c: Cell)
    ensures OnBoard(c)
    ensures 0.0 <= p.x + (MapWidth / 2) as real < MapWidth as real ==>
      (c.gx * GridSize) as real <= p.x + (MapWidth / 2) as real < ((c.gx + 1) * GridSize) as real
    ensures 0.0 <= p.z + (MapHeight / 2) as real < MapHeight as real ==>
      (c.gy * GridSize) as real <= p.z + (MapHeight / 2) as real < ((c.gy + 1) * GridSize) as real
  {
    var gx := ((p.x + (MapWidth as real) / 2.0) / GridSize as real).Floor;
    var gy := ((p.z + (MapHeight as real) / 2.0) / GridSize as real).Floor;
    Cell(Clamp(0, GridCols - 1, gx), Clamp(0, GridRows - 1, gy))
  }

  /** `gridToWorld`: the centre of a cell. */
  function GridToWorld(c: Cell): (p: Spot)
    ensures p.x + (MapWidth / 2) as real == (c.gx * GridSize) as real + (GridSize / 2) as real
    ensures p.z + (MapHeight / 2) as real == (c.gy * GridSize) as real + (GridSize / 2) as real
  {
    Spot((c.gx * GridSize) as real - (MapWidth as real) / 2.0 + (GridSize as real) / 2.0,
         (c.gy * GridSize) as real - (MapHeight as real) / 2.0 + (GridSize as real) / 2.0)
  }

  /** Snapping a cell's centre gives the cell back. */
  lemma GridRoundTrip(c: Cell)
    requires OnBoard(c)
    ensures WorldToGrid(GridToWorld(c)) == c
  {
    var p := GridToWorld(c);
    assert (p.x + 35.0) / 2.0 == c.gx as real + 0.5;
    assert (p.z + 35.0) / 2.0 == c.gy as real + 0.5;
  }

  /** Snapping is idempotent: a snapped point snaps to the same cell. */
  lemma SnapIdempotent(p: Spot)
    ensures WorldToGrid(GridToWorld(WorldToGrid(p))) == WorldToGrid(p)
  {
    GridRoundTrip(WorldToGrid(p));
  }

  /** The placement rectangle checked on the snapped position: (-28, 28) x (-30, 30). */
  predicate InBuildArea(p: Spot)
  {
    -28.0 < p.x < 28.0 && -30.0 < p.z < 30.0
  }

  /** The cells whose centre lies in the placement rectangle. */
  lemma BuildAreaCells(c: Cell)
    ensures InBuildArea(GridToWorld(c)) <==> 4 <= c.gx <= 30 && 3 <= c.gy <= 31
  {
  }
}

=== FILE: kinds.dfy ===
/** Closed tag sets shared by both game variants, and a small Option type. */
module Kinds {

  /** Enemy kinds named by the wave rosters of both variants. */
  datatype EnemyKind =
    | Normal | Fast | Armored | Flying | Resilient | BasicImmune
    | LaserImmune | Ghost | Mirror | Timebender | Virus | Chainbreaker

  /** Tower kinds; the same tags label projectiles and damage-ledger rows. */
  datatype TowerKind = Basic | Ice | Poison | Sniper | Tesla | Laser | Rocket | Support

  /** Every tower kind; the damage ledger keeps one row per element. */
  const TowerKinds: set<TowerKind> := {Basic, Ice, Poison, Sniper, Tesla, Laser, Rocket, Support}

  lemma TowerKindsComplete()
    ensures forall k: TowerKind :: k in TowerKinds
  {
    forall k: TowerKind ensures k in TowerKinds {
      match k
      case Basic =>
      case Ice =>
      case Poison =>
      case Sniper =>
      case Tesla =>
      case Laser =>
      case Rocket =>
      case Support =>
    }
  }

  /** A value that may be absent (a JavaScript `null`). */
  datatype Option<+T> = None | Some(value: T)
}

=== FILE: ledger.dfy ===
/**
 * The damage-statistics table (`damageStats`): one counter per tower kind plus
 * a running total.  Both variants reset it when a wave completes; the 3D
 * variant credits it when a projectile kills its target.
 */
module Ledger {
  import opened Kinds

  datatype Stats = Stats(byKind: map<TowerKind, int>, total: int)

  /** The counter for one kind, reading a missing row as 0 (`damageStats[k] || 0`). */
  function Get(s: Stats, k: TowerKind): int
  {
    if k in s.byKind then s.byKind[k] else 0
  }

  /** Sum of the eight per-kind counters. */
  function SumByKind(s: Stats): int
  {
    Get(s, Basic) + Get(s, Ice) + Get(s, Poison) + Get(s, Sniper)
    + Get(s, Tesla) + Get(s, Laser) + Get(s, Rocket) + Get(s, Support)
  }

  /** The total row agrees with the per-kind rows. */
  predicate Consistent(s: Stats)
  {
    s.total == SumByKind(s)
  }

  /** The freshly reset table: every row, the total included, is zero. */
  function Zero(): (s: Stats)
    ensures forall k: TowerKind :: k in s.byKind && Get(s, k) == 0
    ensures s.total == 0
    ensures Consistent(s)
  {
    TowerKindsComplete();
    Stats(map k | k in TowerKinds :: 0, 0)
  }

  /** Adds `amount` to the row of `k` and to the total. */
  function Credit(s: Stats, k: TowerKind, amount: int): (r: Stats)
    ensures Get(r, k) == Get(s, k) + amount
    ensures r.total == s.total + amount
    ensures forall j: TowerKind :: j != k ==> Get(r, j) == Get(s, j)
  {
    Stats(s.byKind[k := Get(s, k) + amount], s.total + amount)
  }

  /** Crediting keeps the total equal to the sum of the rows. */
  lemma CreditConsistent(s: Stats, k: TowerKind, amount: int)
    requires Consistent(s)
    ensures Consistent(Credit(s, k, amount))
  {
    var r := Credit(s, k, amount);
    match k
    case Basic =>
    case Ice =>
    case Poison =>
    case Sniper =>
    case Tesla =>
    case Laser =>
    case Rocket =>
    case Support =>
  }
}

=== FILE: units3d.dfy ===
/**
 * Towers, enemies and projectiles of the 3D variant
 * (tower_defend/js/game3d.js), each as a value with a pure per-frame step.
 *
 * Distances: the source compares `Math.sqrt(d2)` against a range or a
 * contact radius and against the best distance so far.  Over exact reals,
 * `sqrt(d2) < r` holds exactly when `r > 0 && d2 < r * r`, and `sqrt`
 * preserves order, so the model compares squared distances and needs no
 * square root.  The path geometry (`getPathPosition`) and the steering of a
 * projectile towards its target are parameters.
 */
module Units3D {
  import opened Kinds
  import opened Grid3D
  import Ledger

  const MaxLevel: int := 5
  const EnemySpeed: real := 0.08
  const FreezeTicks: int := 60
  /** Squared contact radius: a projectile hits when closer than 0.6. */
  const ContactSq: real := 0.6 * 0.6

  // ---------------------------------------------------------------------
  // The path
  // ---------------------------------------------------------------------

  /** The waypoints laid by `drawPath`, on the ground plane. */
  const Waypoints: seq<Spot> := [
    Spot(-30.0, 0.0), Spot(-20.0, 0.0), Spot(-20.0, 8.0), Spot(-5.0, 8.0), Spot(-5.0, -8.0),
    Spot(10.0, -8.0), Spot(10.0, 8.0), Spot(25.0, 8.0), Spot(25.0, -5.0), Spot(30.0, -5.0)]

  function Abs(v: real): real
  {
    if v < 0.0 then -v else v
  }

  /** Every leg of the polyline runs along one axis. */
  predicate AxisAligned(ps: seq<Spot>)
  {
    forall i :: 0 <= i < |ps| - 1 ==> ps[i].x == ps[i + 1].x || ps[i].z == ps[i + 1].z
  }

  /**
   * `calculatePathLength` for an axis-aligned polyline: the Euclidean length
   * of such a leg is the absolute difference along its axis.
   */
  function PolylineLength(ps: seq<Spot>): real
    requires AxisAligned(ps)
  {
    if |ps| < 2 then 0.0
    else Abs(ps[0].x - ps[1].x) + Abs(ps[0].z - ps[1].z) + PolylineLength(ps[1..])
  }

  const PathLength: real := 113.0

  lemma PathLengthOfWaypoints()
    ensures AxisAligned(Waypoints)
    ensures PolylineLength(Waypoints) == PathLength
  {
    var w := Waypoints;
    assert PolylineLength(w[9..]) == 0.0;
    assert PolylineLength(w[8..]) == 5.0 + PolylineLength(w[8..][1..]);
    assert w[8..][1..] == w[9..];
    assert PolylineLength(w[7..]) == 13.0 + PolylineLength(w[7..][1..]);
    assert w[7..][1..] == w[8..];
    assert PolylineLength(w[6..]) == 15.0 + PolylineLength(w[6..][1..]);
    assert w[6..][1..] == w[7..];
    assert PolylineLength(w[5..]) == 16.0 + PolylineLength(w[5..][1..]);
    assert w[5..][1..] == w[6..];
    assert PolylineLength(w[4..]) == 15.0 + PolylineLength(w[4..][1..]);
    assert w[4..][1..] == w[5..];
    assert PolylineLength(w[3..]) == 16.0 + PolylineLength(w[3..][1..]);
    assert w[3..][1..] == w[4..];
    assert PolylineLength(w[2..]) == 15.0 + PolylineLength(w[2..][1..]);
    assert w[2..][1..] == w[3..];
    assert PolylineLength(w[1..]) == 8.0 + PolylineLength(w[1..][1..]);
    assert w[1..][1..] == w[2..];
    assert PolylineLength(w) == 10.0 + PolylineLength(w[1..]);
  }

  // ---------------------------------------------------------------------
  // Towers
  // ---------------------------------------------------------------------

  /** The `TOWER_CONFIG` entries a tower reads (the table is outside the model). */
  datatype TowerSpec = TowerSpec(cost: int, range: real, baseDamage: int,
                                 damagePerLevel: int, fireRate: int)

  datatype Tower = Tower(kind: TowerKind, level: int, at: Spot, cooldown: int,
                         range: real, baseDamage: int, damagePerLevel: int, fireRate: int)

  /** The `Tower3D` constructor: level 1, ready to fire, range scaled by 1/40. */
  function NewTower(at: Spot, kind: TowerKind, spec: TowerSpec): (t: Tower)
    ensures t.level == 1 && t.cooldown == 0 && t.kind == kind && t.at == at
    ensures t.range * 40.0 == spec.range
    ensures t.baseDamage == spec.baseDamage && t.damagePerLevel == spec.damagePerLevel
    ensures t.fireRate == spec.fireRate
  {
    Tower(kind, 1, at, 0, spec.range / 40.0, spec.baseDamage, spec.damagePerLevel, spec.fireRate)
  }

  /** `getDamage`: base damage plus the per-level bonus for every level above 1. */
  function Damage(t: Tower): (d: int)
    ensures t.level == 1 ==> d == t.baseDamage
  {
    t.baseDamage + t.damagePerLevel * (t.level - 1)
  }

  datatype Upgraded = Upgraded(ok: bool, tower: Tower, money: int)

  /** `upgrade`: refused at level 5 or when the money does not cover the cost. */
  function Upgrade(t: Tower, money: int, upgradeCost: (TowerKind, int) -> int): (r: Upgraded)
    ensures r.ok <==> t.level < MaxLevel && money >= upgradeCost(t.kind, t.level)
    ensures !r.ok ==> r.tower == t && r.money == money
    ensures r.ok ==>
      r.money == money - upgradeCost(t.kind, t.level) && r.tower == t.(level := t.level + 1)
    ensures t.level <= MaxLevel ==> r.tower.level <= MaxLevel
    ensures r.money >= 0 || r.money == money
  {
    if t.level >= MaxLevel then Upgraded(false, t, money)
    else
      var cost := upgradeCost(t.kind, t.level);
      if money < cost then Upgraded(false, t, money)
      else Upgraded(true, t.(level := t.level + 1), money - cost)
  }

  /** A successful upgrade adds exactly the per-level bonus to the damage. */
  lemma UpgradeRaisesDamage(t: Tower, money: int, upgradeCost: (TowerKind, int) -> int)
    requires Upgrade(t, money, upgradeCost).ok
    ensures Damage(Upgrade(t, money, upgradeCost).tower) == Damage(t) + t.damagePerLevel
  {
    var u := Upgrade(t, money, upgradeCost).tower;
    assert t.damagePerLevel * (u.level - 1) == t.damagePerLevel * (t.level - 1) + t.damagePerLevel;
  }

  // ---------------------------------------------------------------------
  // Enemies
  // ---------------------------------------------------------------------

  /**
   * An `Enemy3D`.  `at` is `None` until the first update: the constructor
   * leaves `x` undefined, so before that every distance to it is NaN and no
   * tower can pick it.
   */
  datatype Enemy = Enemy(id: nat, kind: EnemyKind, health: int, maxHealth: int,
                         progress: real, frozen: bool, freezeTime: int, at: Option<Spot>)

  /** The `Enemy3D` constructor for the current wave. */
  function NewEnemy(id: nat, kind: EnemyKind, wave: int): (e: Enemy)
    ensures e.health == e.maxHealth == 30 + 15 * wave
    ensures e.id == id && e.kind == kind
    ensures e.progress == 0.0 && !e.frozen && e.freezeTime == 0 && e.at.None?
  {
    var hp := 30 + 15 * wave;
    Enemy(id, kind, hp, hp, 0.0, false, 0, None)
  }

  datatype Moved = Moved(enemy: Enemy, reachedEnd: bool)

  /** `Enemy3D.update`: move unless frozen, count the freeze down, detect the end. */
  function Advance(e: Enemy, pathPos: real -> Spot): (m: Moved)
    ensures e.frozen ==> m.enemy.progress == e.progress
    ensures !e.frozen ==> m.enemy.progress == e.progress + EnemySpeed / PathLength
    ensures m.enemy.progress >= e.progress
    ensures e.frozen ==>
      m.enemy.freezeTime == e.freezeTime - 1 && (m.enemy.frozen <==> m.enemy.freezeTime > 0)
    ensures !e.frozen ==> !m.enemy.frozen && m.enemy.freezeTime == e.freezeTime
    ensures m.reachedEnd <==> m.enemy.progress >= 1.0
    ensures m.enemy.at == Some(pathPos(m.enemy.progress))
    ensures m.enemy.id == e.id && m.enemy.kind == e.kind
    ensures m.enemy.health == e.health && m.enemy.maxHealth == e.maxHealth
  {
    var progress := if !e.frozen then e.progress + EnemySpeed / PathLength else e.progress;
    var left := if e.frozen then e.freezeTime - 1 else e.freezeTime;
    var frozen := e.frozen && left > 0;
    var moved := e.(progress := progress, freezeTime := left, frozen := frozen,
                    at := Some(pathPos(progress)));
    Moved(moved, progress >= 1.0)
  }

  datatype Hit = Hit(enemy: Enemy, killed: bool)

  /** `Enemy3D.takeDamage`: lose `amount` health; an ice hit freezes an unfrozen enemy. */
  function TakeDamage(e: Enemy, amount: int, kind: TowerKind): (h: Hit)
    ensures h.enemy.health == e.health - amount
    ensures h.killed <==> h.enemy.health <= 0
    ensures kind == Ice && !e.frozen ==> h.enemy.frozen && h.enemy.freezeTime == FreezeTicks
    ensures !(kind == Ice && !e.frozen) ==>
      h.enemy.frozen == e.frozen && h.enemy.freezeTime == e.freezeTime
    ensures h.enemy == e.(health := h.enemy.health, frozen := h.enemy.frozen,
                          freezeTime := h.enemy.freezeTime)
  {
    var hurt := e.(health := e.health - amount);
    var chilled := if kind == Ice && !e.frozen then hurt.(frozen := true, freezeTime := FreezeTicks)
                   else hurt;
    Hit(chilled, chilled.health <= 0)
  }

  /** A second ice hit on a frozen enemy does not restart its freeze. */
  lemma IceDoesNotRefreeze(e: Enemy, amount: int)
    requires e.frozen
    ensures TakeDamage(e, amount, Ice).enemy.freezeTime == e.freezeTime
  {
  }

  predicate DistinctIds(es: seq<Enemy>)
  {
    forall i, j :: 0 <= i < j < |es| ==> es[i].id != es[j].id
  }

  predicate IdsBelow(es: seq<Enemy>, n: nat)
  {
    forall i :: 0 <= i < |es| ==> es[i].id < n
  }

  /** The identities present in a list of enemies. */
  function Ids(es: seq<Enemy>): set<nat>
  {
    set e | e in es :: e.id
  }

  lemma DistinctTail(es: seq<Enemy>)
    requires |es| > 0 && DistinctIds(es)
    ensures DistinctIds(es[1..])
    ensures es[0].id !in Ids(es[1..])
  {
  }

  lemma DistinctCons(e: Enemy, rest: seq<Enemy>)
    requires DistinctIds(rest) && e.id !in Ids(rest)
    ensures DistinctIds([e] + rest)
  {
    var s := [e] + rest;
    forall i, j | 0 <= i < j < |s|
      ensures s[i].id != s[j].id
    {
      assert s[j] == rest[j - 1];
      if i > 0 {
        assert s[i] == rest[i - 1];
      } else {
        assert rest[j - 1] in rest;
      }
    }
  }

  datatype March = March(kept: seq<Enemy>, escaped: nat)

  /**
   * Every enemy updates once; those that reached the end leave the list and
   * are counted, each costing one life.
   */
  function MarchAll(es: seq<Enemy>, pathPos: real -> Spot): (r: March)
    ensures |r.kept| + r.escaped == |es|
    ensures forall e :: e in r.kept ==> e.progress < 1.0 && e.at.Some?
    ensures forall i :: 0 <= i < |es| ==>
      (!Advance(es[i], pathPos).reachedEnd ==> Advance(es[i], pathPos).enemy in r.kept)
    ensures forall e :: e in r.kept ==>
      exists i :: 0 <= i < |es| && Advance(es[i], pathPos) == Moved(e, false)
    ensures Ids(r.kept) <= Ids(es)
    ensures DistinctIds(es) ==> DistinctIds(r.kept)
  {
    if |es| == 0 then March([], 0)
    else
      var m := Advance(es[0], pathPos);
      var rest := MarchAll(es[1..], pathPos);
      assert forall i :: 1 <= i < |es| ==> es[i] == es[1..][i - 1];
      assert Ids(es) == {es[0].id} + Ids(es[1..]) by {
        assert es == [es[0]] + es[1..];
      }
      if m.reachedEnd then March(rest.kept, rest.escaped + 1)
      else
        var kept := [m.enemy] + rest.kept;
        assert DistinctIds(es) ==> DistinctIds(kept) by {
          if DistinctIds(es) {
            DistinctTail(es);
            DistinctCons(m.enemy, rest.kept);
          }
        }
        March(kept, rest.escaped)
  }

  // ---------------------------------------------------------------------
  // The enemy pass as written
  // ---------------------------------------------------------------------

  /**
   * Armored and flying enemies are drawn as a `THREE.Group`, which has no
   * `material`; the other kinds are a single mesh.
   */
  predicate GroupMesh(k: EnemyKind)
  {
    k == Armored || k == Flying
  }

  /**
   * `Enemy3D.update` re-tints a frozen enemy through `this.mesh.material`;
   * for a group mesh that call throws.
   */
  predicate Throws(e: Enemy)
  {
    e.frozen && GroupMesh(e.kind)
  }

  /** What `Enemy3D.update` does as written: it either runs to its end or throws. */
  datatype EnemyUpdate = Ran(moved: Moved) | Threw(enemy: Enemy)

  /**
   * `Enemy3D.update` as written.  The throw comes after the freeze countdown
   * and before the position update, so a throwing enemy has counted its
   * freeze down but has not been placed.
   */
  function AdvanceAsWritten(e: Enemy, pathPos: real -> Spot): (u: EnemyUpdate)
    ensures u.Threw? <==> Throws(e)
    ensures u.Ran? ==> u.moved == Advance(e, pathPos)
    ensures u.Threw? ==> u.enemy == Advance(e, pathPos).enemy.(at := e.at)
  {
    if Throws(e) then
      var left := e.freezeTime - 1;
      Threw(e.(freezeTime := left, frozen := left > 0))
    else Ran(Advance(e, pathPos))
  }

  /** The enemy pass of a frame as written: `threw` records that it stopped early. */
  datatype Pass = Pass(kept: seq<Enemy>, escaped: nat, threw: bool)

  /**
   * `enemies.forEach(enemy => enemy.update())` as written: the enemies are
   * updated in order until one throws; the throw ends the frame, so the
   * enemies after it are left as they were.
   */
  function MarchAsWritten(es: seq<Enemy>, pathPos: real -> Spot): (r: Pass)
    ensures r.threw <==> exists i :: 0 <= i < |es| && Throws(es[i])
    ensures !r.threw ==> r.kept == MarchAll(es, pathPos).kept && r.escaped == MarchAll(es, pathPos).escaped
    ensures |r.kept| + r.escaped == |es|
  {
    if |es| == 0 then Pass([], 0, false)
    else
      assert forall i :: 1 <= i < |es| ==> es[i] == es[1..][i - 1];
      match AdvanceAsWritten(es[0], pathPos)
      case Threw(e) => Pass([e] + es[1..], 0, true)
      case Ran(m) =>
        var rest := MarchAsWritten(es[1..], pathPos);
        if m.reachedEnd then rest.(escaped := rest.escaped + 1)
        else rest.(kept := [m.enemy] + rest.kept)
  }

  /** One step of the intended pass. */
  lemma MarchAllCons(es: seq<Enemy>, pathPos: real -> Spot)
    requires |es| > 0
    ensures var m := Advance(es[0], pathPos);
      var rest := MarchAll(es[1..], pathPos);
      MarchAll(es, pathPos) ==
        if m.reachedEnd then March(rest.kept, rest.escaped + 1) else March([m.enemy] + rest.kept, rest.escaped)
  {
  }

  /** One step of the pass as written, at an enemy that does not throw. */
  lemma MarchAsWrittenCons(es: seq<Enemy>, pathPos: real -> Spot)
    requires |es| > 0 && !Throws(es[0])
    ensures var m := Advance(es[0], pathPos);
      var rest := MarchAsWritten(es[1..], pathPos);
      MarchAsWritten(es, pathPos) ==
        if m.reachedEnd then rest.(escaped := rest.escaped + 1) else rest.(kept := [m.enemy] + rest.kept)
  {
  }

  /**
   * Where the pass as written stops: the enemies before the first throwing
   * one march as intended, the throwing one only counts its freeze down, and
   * the ones after it are not touched.
   */
  lemma {:induction false} MarchAsWrittenStops(front: seq<Enemy>, e: Enemy, back: seq<Enemy>,
                                               pathPos: real -> Spot)
    requires forall i :: 0 <= i < |front| ==> !Throws(front[i])
    requires Throws(e)
    ensures var m := MarchAll(front, pathPos);
      MarchAsWritten(front + [e] + back, pathPos) ==
        Pass(m.kept + [Advance(e, pathPos).enemy.(at := e.at)] + back, m.escaped, true)
    decreases |front|
  {
    var es := front + [e] + back;
    var x := Advance(e, pathPos).enemy.(at := e.at);
    if |front| == 0 {
      assert es == [e] + back;
      assert es[1..] == back;
    } else {
      forall i | 0 <= i < |front[1..]|
        ensures !Throws(front[1..][i])
      {
        assert front[1..][i] == front[i + 1];
      }
      MarchAsWrittenStops(front[1..], e, back, pathPos);
      StopsStep(front, e, back, pathPos);
    }
  }

  /** The inductive step of `MarchAsWrittenStops`: one more enemy that does not throw in front. */
  lemma StopsStep(front: seq<Enemy>, e: Enemy, back: seq<Enemy>, pathPos: real -> Spot)
    requires |front| > 0 && !Throws(front[0])
    requires var m := MarchAll(front[1..], pathPos);
      MarchAsWritten(front[1..] + [e] + back, pathPos) ==
        Pass(m.kept + [Advance(e, pathPos).enemy.(at := e.at)] + back, m.escaped, true)
    ensures var m := MarchAll(front, pathPos);
      MarchAsWritten(front + [e] + back, pathPos) ==
        Pass(m.kept + [Advance(e, pathPos).enemy.(at := e.at)] + back, m.escaped, true)
  {
    var es := front + [e] + back;
    var es1 := front[1..] + [e] + back;
    SplitHead(front, e, back);
    var x := Advance(e, pathPos).enemy.(at := e.at);
    var m0 := Advance(front[0], pathPos);
    var rest := MarchAll(front[1..], pathPos);
    var written := MarchAsWritten(es1, pathPos);
    var all := MarchAll(front, pathPos);
    var w := MarchAsWritten(es, pathPos);
    assert all == if m0.reachedEnd then March(rest.kept, rest.escaped + 1)
                  else March([m0.enemy] + rest.kept, rest.escaped) by {
      MarchAllCons(front, pathPos);
    }
    assert w == if m0.reachedEnd then written.(escaped := written.escaped + 1)
                else written.(kept := [m0.enemy] + written.kept) by {
      MarchAsWrittenCons(es, pathPos);
    }
    PassCons(m0, rest, written, x, back, all, w);
  }

  /** Slicing off the head of `front + [e] + back`. */
  lemma SplitHead(front: seq<Enemy>, e: Enemy, back: seq<Enemy>)
    requires |front| > 0
    ensures (front + [e] + back)[0] == front[0]
    ensures (front + [e] + back)[1..] == front[1..] + [e] + back
  {
  }

  /** The list algebra behind `StopsStep`, free of the functions it is applied to. */
  lemma PassCons(m0: Moved, rest: March, written: Pass, x: Enemy, back: seq<Enemy>, all: March, w: Pass)
    requires written == Pass(rest.kept + [x] + back, rest.escaped, true)
    requires all == if m0.reachedEnd then March(rest.kept, rest.escaped + 1)
                    else March([m0.enemy] + rest.kept, rest.escaped)
    requires w == if m0.reachedEnd then written.(escaped := written.escaped + 1)
                  else written.(kept := [m0.enemy] + written.kept)
    ensures w == Pass(all.kept + [x] + back, all.escaped, true)
  {
    if !m0.reachedEnd {
      assert [m0.enemy] + (rest.kept + [x] + back) == ([m0.enemy] + rest.kept) + [x] + back;
    }
  }

  /**
   * A frozen armored enemy at the head of the list stops the pass as written:
   * an unfrozen enemy behind it stands still, where the intended pass moves it.
   */
  lemma FrozenArmoredStallsPass(e: Enemy, f: Enemy, pathPos: real -> Spot)
    requires e.kind == Armored && e.frozen && !f.frozen
    ensures MarchAsWritten([e, f], pathPos).threw
    ensures MarchAsWritten([e, f], pathPos).kept[1] == f
    ensures Advance(f, pathPos).enemy.progress > f.progress
  {
    assert [e, f][1..] == [f];
  }

  // ---------------------------------------------------------------------
  // Targeting
  // ---------------------------------------------------------------------

  function SqDist(a: Spot, b: Spot): real
  {
    (a.x - b.x) * (a.x - b.x) + (a.z - b.z) * (a.z - b.z)
  }

  /** The enemy has a position strictly inside the tower's range. */
  predicate InRange(t: Tower, e: Enemy)
  {
    e.at.Some? && 0.0 < t.range && SqDist(t.at, e.at.value) < t.range * t.range
  }

  /** Squared distance to an enemy; an unpositioned one counts as infinitely far. */
  function Reach(t: Tower, e: Enemy): real
    requires e.at.Some?
  {
    SqDist(t.at, e.at.value)
  }

  /**
   * Index `i` is the tower's target: in range, no in-range enemy strictly
   * closer, and every earlier in-range enemy strictly farther (ties keep the
   * first one found).
   */
  predicate IsNearest(t: Tower, es: seq<Enemy>, i: int)
  {
    && 0 <= i < |es| && InRange(t, es[i])
    && (forall j :: 0 <= j < |es| && InRange(t, es[j]) ==> Reach(t, es[i]) <= Reach(t, es[j]))
    && (forall j :: 0 <= j < i && InRange(t, es[j]) ==> Reach(t, es[j]) > Reach(t, es[i]))
  }

  /** The scan of `Tower3D.update` from index `i` on, `best` being the target so far. */
  function NearestFrom(t: Tower, es: seq<Enemy>, i: nat, best: Option<nat>): (r: Option<nat>)
    requires i <= |es|
    requires best.None? ==> forall j :: 0 <= j < i ==> !InRange(t, es[j])
    requires best.Some? ==> IsNearest(t, es[..i], best.value)
    ensures r.None? ==> forall j :: 0 <= j < |es| ==> !InRange(t, es[j])
    ensures r.Some? ==> IsNearest(t, es, r.value)
    decreases |es| - i
  {
    if i == |es| then
      assert es[..i] == es;
      best
    else
      var e := es[i];
      assert es[..i + 1] == es[..i] + [e];
      if InRange(t, e) && (best.None? || Reach(t, e) < Reach(t, es[best.value])) then
        NearestFrom(t, es, i + 1, Some(i))
      else
        NearestFrom(t, es, i + 1, best)
  }

  /** The target of a tower: `None` exactly when no enemy is in range. */
  function Nearest(t: Tower, es: seq<Enemy>): (r: Option<nat>)
    ensures r.None? <==> forall j :: 0 <= j < |es| ==> !InRange(t, es[j])
    ensures r.Some? ==> IsNearest(t, es, r.value)
  {
    NearestFrom(t, es, 0, None)
  }

  /** The target is determined: at most one index satisfies `IsNearest`. */
  lemma NearestUnique(t: Tower, es: seq<Enemy>, i: int, k: int)
    requires IsNearest(t, es, i) && IsNearest(t, es, k)
    ensures i == k
  {
  }

  // ---------------------------------------------------------------------
  // Fire control
  // ---------------------------------------------------------------------

  datatype Vec3 = Vec3(x: real, y: real, z: real)

  /** A `Projectile3D`: where it is, the identity of its target, damage and tag. */
  datatype Projectile = Projectile(at: Vec3, target: nat, damage: int, kind: TowerKind)

  datatype Fired = Fired(tower: Tower, shot: Option<Projectile>)

  /** `Tower3D.update`: cool down by one, then fire at the target if ready. */
  function TowerStep(t: Tower, es: seq<Enemy>): (f: Fired)
    ensures f.shot.Some? <==> Nearest(t, es).Some? && t.cooldown - 1 <= 0
    ensures f.shot.Some? ==>
      var i := Nearest(t, es).value;
      && IsNearest(t, es, i)
      && f.shot.value == Projectile(Vec3(t.at.x, 1.5, t.at.z), es[i].id, Damage(t), t.kind)
      && f.tower.cooldown == t.fireRate
    ensures f.shot.None? ==> f.tower.cooldown == t.cooldown - 1
    ensures f.tower == t.(cooldown := f.tower.cooldown)
  {
    var cooldown := t.cooldown - 1;
    var target := Nearest(t, es);
    if target.Some? && cooldown <= 0 then
      var shot := Projectile(Vec3(t.at.x, 1.5, t.at.z), es[target.value].id, Damage(t), t.kind);
      Fired(t.(cooldown := t.fireRate), Some(shot))
    else
      Fired(t.(cooldown := cooldown), None)
  }

  /** A tower with no enemy in range never fires and only cools down. */
  lemma NoTargetNoShot(t: Tower, es: seq<Enemy>)
    requires forall j :: 0 <= j < |es| ==> !InRange(t, es[j])
    ensures TowerStep(t, es) == Fired(t.(cooldown := t.cooldown - 1), None)
  {
  }

  datatype Volley = Volley(towers: seq<Tower>, shots: seq<Projectile>)

  /** All towers update in list order; their shots are appended in that order. */
  function TowersStep(ts: seq<Tower>, es: seq<Enemy>): (r: Volley)
    ensures |r.towers| == |ts|
    ensures forall i :: 0 <= i < |ts| ==> r.towers[i] == TowerStep(ts[i], es).tower
    ensures |r.shots| <= |ts|
    ensures (forall i :: 0 <= i < |ts| ==> TowerStep(ts[i], es).shot.None?) ==> r.shots == []
    ensures forall p :: p in r.shots ==>
      exists i :: 0 <= i < |es| && es[i].id == p.target && es[i].at.Some?
  {
    if |ts| == 0 then Volley([], [])
    else
      var f := TowerStep(ts[0], es);
      var rest := TowersStep(ts[1..], es);
      var mine := if f.shot.Some? then [f.shot.value] else [];
      assert forall i :: 1 <= i < |ts| ==> ts[i] == ts[1..][i - 1];
      Volley([f.tower] + rest.towers, mine + rest.shots)
  }

  /**
   * The volley holds exactly the towers' shots: every tower that fires
   * contributes its shot, and every shot is some tower's.
   */
  lemma {:induction false} VolleyComplete(ts: seq<Tower>, es: seq<Enemy>)
    ensures var r := TowersStep(ts, es);
      && (forall i :: 0 <= i < |ts| && TowerStep(ts[i], es).shot.Some? ==>
            TowerStep(ts[i], es).shot.value in r.shots)
      && (forall p :: p in r.shots ==>
            exists i :: 0 <= i < |ts| && TowerStep(ts[i], es).shot == Some(p))
    decreases |ts|
  {
    if |ts| > 0 {
      var r := TowersStep(ts, es);
      var f := TowerStep(ts[0], es);
      var rest := TowersStep(ts[1..], es);
      var mine := if f.shot.Some? then [f.shot.value] else [];
      assert r.shots == mine + rest.shots;
      VolleyComplete(ts[1..], es);
      forall i | 0 <= i < |ts| && TowerStep(ts[i], es).shot.Some?
        ensures TowerStep(ts[i], es).shot.value in r.shots
      {
        if i > 0 {
          assert ts[i] == ts[1..][i - 1];
        }
      }
      forall p | p in r.shots
        ensures exists i :: 0 <= i < |ts| && TowerStep(ts[i], es).shot == Some(p)
      {
        if p in rest.shots {
          var j :| 0 <= j < |ts[1..]| && TowerStep(ts[1..][j], es).shot == Some(p);
          assert ts[1..][j] == ts[j + 1];
        } else {
          assert TowerStep(ts[0], es).shot == Some(p);
        }
      }
    }
  }

  // ---------------------------------------------------------------------
  // Projectiles
  // ---------------------------------------------------------------------

  /** The first index holding the enemy with identity `id`. */
  function IndexOfId(es: seq<Enemy>, id: nat): (r: Option<nat>)
    ensures r.Some? ==> r.value < |es| && es[r.value].id == id
    ensures r.Some? ==> forall j :: 0 <= j < r.value ==> es[j].id != id
    ensures r.None? <==> forall j :: 0 <= j < |es| ==> es[j].id != id
  {
    if |es| == 0 then None
    else if es[0].id == id then Some(0)
    else
      var r := IndexOfId(es[1..], id);
      assert forall j :: 1 <= j < |es| ==> es[j] == es[1..][j - 1];
      if r.Some? then Some(r.value + 1) else None
  }

  function RemoveAt(es: seq<Enemy>, i: nat): (r: seq<Enemy>)
    requires i < |es|
    ensures |r| == |es| - 1
    ensures forall j :: 0 <= j < i ==> r[j] == es[j]
    ensures forall j :: i <= j < |r| ==> r[j] == es[j + 1]
  {
    es[..i] + es[i + 1..]
  }

  function SqDist3(a: Vec3, b: Vec3): real
  {
    (a.x - b.x) * (a.x - b.x) + (a.y - b.y) * (a.y - b.y) + (a.z - b.z) * (a.z - b.z)
  }

  /** The point a projectile flies to: the target at height 0.5. */
  function AimPoint(e: Enemy): Vec3
    requires e.at.Some?
  {
    Vec3(e.at.value.x, 0.5, e.at.value.z)
  }

  datatype Resolved = Resolved(shot: Option<Projectile>, enemies: seq<Enemy>, stats: Ledger.Stats)

  /** The projectile's target is present, positioned, and closer than the contact radius. */
  predicate InContact(p: Projectile, es: seq<Enemy>)
  {
    var found := IndexOfId(es, p.target);
    found.Some? && es[found.value].at.Some? && SqDist3(p.at, AimPoint(es[found.value])) < ContactSq
  }

  /** Removing the enemy at `i` from a list of distinct identities removes exactly its identity. */
  lemma RemoveAtIds(es: seq<Enemy>, i: nat)
    requires i < |es|
    ensures Ids(RemoveAt(es, i)) <= Ids(es)
    ensures DistinctIds(es) ==> Ids(RemoveAt(es, i)) == Ids(es) - {es[i].id}
  {
    var r := RemoveAt(es, i);
    forall id | id in Ids(r)
      ensures id in Ids(es) && (DistinctIds(es) ==> id != es[i].id)
    {
      var j :| 0 <= j < |r| && r[j].id == id;
      var k := if j < i then j else j + 1;
      assert r[j] == es[k] && es[k] in es;
    }
    if DistinctIds(es) {
      forall id | id in Ids(es) - {es[i].id}
        ensures id in Ids(r)
      {
        var k :| 0 <= k < |es| && es[k].id == id;
        assert k != i;
        var j := if k < i then k else k - 1;
        assert r[j] == es[k] && r[j] in r;
      }
    }
  }

  /** Replacing an enemy by one with the same identity keeps the identities. */
  lemma UpdateAtIds(es: seq<Enemy>, i: nat, e: Enemy)
    requires i < |es| && e.id == es[i].id
    ensures Ids(es[i := e]) == Ids(es)
  {
    var r := es[i := e];
    forall id | id in Ids(r)
      ensures id in Ids(es)
    {
      var j :| 0 <= j < |r| && r[j].id == id;
      assert es[j] in es;
    }
    forall id | id in Ids(es)
      ensures id in Ids(r)
    {
      var j :| 0 <= j < |es| && es[j].id == id;
      assert r[j] in r;
    }
  }

  /**
   * `Projectile3D.update`.  A projectile whose target is gone disappears.
   * Within contact distance it deals its damage once and disappears; the
   * ledger is credited only when that hit kills, and a kill removes the
   * enemy.  Otherwise it moves by `steer` and stays.
   */
  function ProjectileStep(p: Projectile, es: seq<Enemy>, stats: Ledger.Stats,
                          steer: (Vec3, Vec3) -> Vec3): (r: Resolved)
    ensures IndexOfId(es, p.target).None? ==> r == Resolved(None, es, stats)
    ensures r.shot.Some? ==> r.enemies == es && r.stats == stats && r.shot.value.(at := p.at) == p
    ensures r.shot.None? && IndexOfId(es, p.target).Some? ==>
      var i := IndexOfId(es, p.target).value;
      var h := TakeDamage(es[i], p.damage, p.kind);
      && es[i].at.Some? && SqDist3(p.at, AimPoint(es[i])) < ContactSq
      && (h.killed ==> r.enemies == RemoveAt(es, i) && r.stats == Ledger.Credit(stats, p.kind, p.damage))
      && (!h.killed ==> r.enemies == es[i := h.enemy] && r.stats == stats)
    ensures InContact(p, es) ==> r.shot.None?
    ensures IndexOfId(es, p.target).Some? && !InContact(p, es) ==>
      var e := es[IndexOfId(es, p.target).value];
      r.enemies == es && r.stats == stats
      && r.shot == Some(if e.at.Some? then p.(at := steer(p.at, AimPoint(e))) else p)
    ensures |r.enemies| == |es| || |r.enemies| == |es| - 1
    ensures |r.enemies| == |es| ==> r.stats == stats && Ids(r.enemies) == Ids(es)
    ensures |r.enemies| < |es| ==>
      && InContact(p, es) && p.target in Ids(es)
      && r.stats == Ledger.Credit(stats, p.kind, p.damage)
      && (DistinctIds(es) ==> Ids(r.enemies) == Ids(es) - {p.target})
    ensures Ids(r.enemies) <= Ids(es)
    ensures DistinctIds(es) ==> DistinctIds(r.enemies)
  {
    var found := IndexOfId(es, p.target);
    if found.None? then Resolved(None, es, stats)
    else
      var i := found.value;
      var e := es[i];
      if e.at.None? then Resolved(Some(p), es, stats)
      else
        var aim := AimPoint(e);
        if SqDist3(p.at, aim) < ContactSq then
          var h := TakeDamage(e, p.damage, p.kind);
          if h.killed then
            var rest := RemoveAt(es, i);
            assert forall j :: 0 <= j < |rest| ==> rest[j] == es[if j < i then j else j + 1];
            assert es[i] in es;
            RemoveAtIds(es, i);
            Resolved(None, rest, Ledger.Credit(stats, p.kind, p.damage))
          else
            UpdateAtIds(es, i, h.enemy);
            Resolved(None, es[i := h.enemy], stats)
        else
          Resolved(Some(p.(at := steer(p.at, aim))), es, stats)
  }

  /**
   * The result of the projectile pass: the projectiles still flying, the
   * enemies left, the ledger, and the projectiles whose hit killed, in order.
   */
  datatype Salvo = Salvo(shots: seq<Projectile>, enemies: seq<Enemy>, stats: Ledger.Stats,
                         kills: seq<Projectile>)

  /** Total damage carried by a list of projectiles. */
  function DamageSum(ps: seq<Projectile>): int
  {
    if |ps| == 0 then 0 else ps[0].damage + DamageSum(ps[1..])
  }

  /** Damage carried by the projectiles of one tower kind. */
  function KindDamage(ps: seq<Projectile>, k: TowerKind): int
  {
    if |ps| == 0 then 0
    else (if ps[0].kind == k then ps[0].damage else 0) + KindDamage(ps[1..], k)
  }

  /** The identities the projectiles aim at. */
  function Targets(ps: seq<Projectile>): set<nat>
  {
    set p | p in ps :: p.target
  }

  /** The projectile list filtered by `update`, each projectile in turn. */
  function ProjectilesStep(ps: seq<Projectile>, es: seq<Enemy>, stats: Ledger.Stats,
                           steer: (Vec3, Vec3) -> Vec3): (r: Salvo)
    ensures |r.shots| <= |ps|
    ensures |r.enemies| + |r.kills| == |es|
    ensures |r.enemies| == |es| ==> r.stats == stats
    ensures Ledger.Consistent(stats) ==> Ledger.Consistent(r.stats)
    ensures forall q :: q in r.kills ==> q in ps
    ensures Ids(r.enemies) <= Ids(es)
    ensures DistinctIds(es) ==> DistinctIds(r.enemies)
    ensures forall q :: q in r.shots ==> exists p :: p in ps && q.(at := p.at) == p
  {
    if |ps| == 0 then Salvo([], es, stats, [])
    else
      var first := ProjectileStep(ps[0], es, stats, steer);
      assert Ledger.Consistent(stats) ==> Ledger.Consistent(first.stats) by {
        if Ledger.Consistent(stats) && |first.enemies| < |es| {
          Ledger.CreditConsistent(stats, ps[0].kind, ps[0].damage);
        }
      }
      var rest := ProjectilesStep(ps[1..], first.enemies, first.stats, steer);
      assert forall p :: p in ps[1..] ==> p in ps;
      var kept := if first.shot.Some? then [first.shot.value] else [];
      assert forall q :: q in kept + rest.shots ==> exists p :: p in ps && q.(at := p.at) == p by {
        forall q | q in kept + rest.shots
          ensures exists p :: p in ps && q.(at := p.at) == p
        {
          if q in kept {
            assert q.(at := ps[0].at) == ps[0];
          } else {
            var p :| p in ps[1..] && q.(at := p.at) == p;
            assert p in ps;
          }
        }
      }
      var killed := if |first.enemies| < |es| then [ps[0]] else [];
      Salvo(kept + rest.shots, rest.enemies, rest.stats, killed + rest.kills)
  }

  /** The enemy with identity `id`, if any: the one a projectile aiming at `id` finds. */
  function Find(es: seq<Enemy>, id: nat): (r: Option<Enemy>)
    ensures DistinctIds(es) ==> (r.None? <==> id !in Ids(es))
    ensures r.Some? ==> r.value in es && r.value.id == id
  {
    var found := IndexOfId(es, id);
    if found.Some? then Some(es[found.value]) else None
  }

  /** With distinct identities, the enemy found for an identity is the one enemy carrying it. */
  lemma FindDistinct(es: seq<Enemy>, e: Enemy)
    requires DistinctIds(es) && e in es
    ensures Find(es, e.id) == Some(e)
  {
    var k :| 0 <= k < |es| && es[k] == e;
    var found := IndexOfId(es, e.id);
    assert found.Some?;
    assert found.value == k;
  }

  /** What a projectile does to itself depends only on the enemy it finds. */
  lemma ShotDependsOnTarget(p: Projectile, es1: seq<Enemy>, stats1: Ledger.Stats,
                            es2: seq<Enemy>, stats2: Ledger.Stats, steer: (Vec3, Vec3) -> Vec3)
    requires Find(es1, p.target) == Find(es2, p.target)
    ensures ProjectileStep(p, es1, stats1, steer).shot == ProjectileStep(p, es2, stats2, steer).shot
  {
  }

  /** A projectile's step leaves every other identity's enemy as it was. */
  lemma StepKeepsOthers(p: Projectile, es: seq<Enemy>, stats: Ledger.Stats,
                        steer: (Vec3, Vec3) -> Vec3, id: nat)
    requires DistinctIds(es) && id != p.target
    ensures Find(ProjectileStep(p, es, stats, steer).enemies, id) == Find(es, id)
  {
    var r := ProjectileStep(p, es, stats, steer);
    if r.enemies != es {
      var i := IndexOfId(es, p.target).value;
      var h := TakeDamage(es[i], p.damage, p.kind);
      assert DistinctIds(r.enemies);
      if Find(es, id).Some? {
        var e := Find(es, id).value;
        var k :| 0 <= k < |es| && es[k] == e;
        assert k != i;
        if h.killed {
          var j := if k < i then k else k - 1;
          assert r.enemies[j] == e;
        } else {
          assert r.enemies[k] == e;
        }
        FindDistinct(r.enemies, e);
      } else {
        assert id !in Ids(r.enemies);
      }
    }
  }

  /**
   * Projectiles fly independently: with distinct identities, a projectile
   * whose target no earlier projectile of the pass aims at does in the pass
   * exactly what it would do alone, so if it flies on alone it is still in
   * flight after the pass, whatever the others hit or kill.
   */
  lemma {:induction false} PassKeepsUnshared(ps: seq<Projectile>, es: seq<Enemy>, stats: Ledger.Stats,
                                             steer: (Vec3, Vec3) -> Vec3)
    requires DistinctIds(es)
    ensures forall i ::
      (0 <= i < |ps| && ps[i].target !in Targets(ps[..i])
       && ProjectileStep(ps[i], es, stats, steer).shot.Some?) ==>
      ProjectileStep(ps[i], es, stats, steer).shot.value in ProjectilesStep(ps, es, stats, steer).shots
    decreases |ps|
  {
    if |ps| > 0 {
      var first := ProjectileStep(ps[0], es, stats, steer);
      var r := ProjectilesStep(ps, es, stats, steer);
      var rest := ProjectilesStep(ps[1..], first.enemies, first.stats, steer);
      var kept := if first.shot.Some? then [first.shot.value] else [];
      assert r.shots == kept + rest.shots;
      PassKeepsUnshared(ps[1..], first.enemies, first.stats, steer);
      forall i | 0 <= i < |ps| && ps[i].target !in Targets(ps[..i])
                 && ProjectileStep(ps[i], es, stats, steer).shot.Some?
        ensures ProjectileStep(ps[i], es, stats, steer).shot.value in r.shots
      {
        if i > 0 {
          var q := ps[i];
          assert ps[0] in ps[..i];
          assert q.target != ps[0].target;
          assert ps[1..][i - 1] == q;
          assert forall x :: x in ps[1..][..i - 1] ==> x in ps[..i];
          assert q.target !in Targets(ps[1..][..i - 1]);
          StepKeepsOthers(ps[0], es, stats, steer, q.target);
          ShotDependsOnTarget(q, es, stats, first.enemies, first.stats, steer);
        }
      }
    }
  }

  /** The ledger grows by exactly the damage of the killing hits, per kind and in total. */
  lemma {:induction false} PassCredits(ps: seq<Projectile>, es: seq<Enemy>, stats: Ledger.Stats,
                                       steer: (Vec3, Vec3) -> Vec3)
    ensures var r := ProjectilesStep(ps, es, stats, steer);
      && r.stats.total == stats.total + DamageSum(r.kills)
      && (forall k :: Ledger.Get(r.stats, k) == Ledger.Get(stats, k) + KindDamage(r.kills, k))
    decreases |ps|
  {
    if |ps| > 0 {
      var first := ProjectileStep(ps[0], es, stats, steer);
      var rest := ProjectilesStep(ps[1..], first.enemies, first.stats, steer);
      var killed := if |first.enemies| < |es| then [ps[0]] else [];
      PassCredits(ps[1..], first.enemies, first.stats, steer);
      KillsSplit(killed, rest.kills);
    }
  }

  /** The enemies that disappear in the pass are exactly the targets of the killing hits. */
  lemma {:induction false} PassRemovesKilled(ps: seq<Projectile>, es: seq<Enemy>, stats: Ledger.Stats,
                                             steer: (Vec3, Vec3) -> Vec3)
    requires DistinctIds(es)
    ensures var r := ProjectilesStep(ps, es, stats, steer);
      Ids(r.enemies) + Targets(r.kills) == Ids(es) && Ids(r.enemies) !! Targets(r.kills)
    decreases |ps|
  {
    if |ps| > 0 {
      var first := ProjectileStep(ps[0], es, stats, steer);
      var rest := ProjectilesStep(ps[1..], first.enemies, first.stats, steer);
      var killed := if |first.enemies| < |es| then [ps[0]] else [];
      StepRemovesKilled(ps[0], es, stats, steer);
      PassRemovesKilled(ps[1..], first.enemies, first.stats, steer);
      KillsSplit(killed, rest.kills);
    }
  }

  /** One projectile removes at most its own target, and only by killing it. */
  lemma StepRemovesKilled(p: Projectile, es: seq<Enemy>, stats: Ledger.Stats, steer: (Vec3, Vec3) -> Vec3)
    requires DistinctIds(es)
    ensures var r := ProjectileStep(p, es, stats, steer);
      var killed := if |r.enemies| < |es| then [p] else [];
      && DistinctIds(r.enemies)
      && Ids(r.enemies) + Targets(killed) == Ids(es)
      && Ids(r.enemies) !! Targets(killed)
  {
    var r := ProjectileStep(p, es, stats, steer);
    if |r.enemies| < |es| {
      assert Targets([p]) == {p.target};
    } else {
      assert Targets([]) == {};
    }
  }

  /** When no projectile touches its target, the pass changes no enemy and no ledger row. */
  lemma {:induction false} QuietPass(ps: seq<Projectile>, es: seq<Enemy>, stats: Ledger.Stats,
                                     steer: (Vec3, Vec3) -> Vec3)
    requires forall i :: 0 <= i < |ps| ==> !InContact(ps[i], es)
    ensures var r := ProjectilesStep(ps, es, stats, steer);
      r.enemies == es && r.stats == stats && |r.kills| == 0
    decreases |ps|
  {
    if |ps| > 0 {
      assert !InContact(ps[0], es);
      forall i | 0 <= i < |ps[1..]|
        ensures !InContact(ps[1..][i], es)
      {
        assert ps[1..][i] == ps[i + 1];
      }
      QuietPass(ps[1..], es, stats, steer);
    }
  }

  /** A projectile out of contact leaves the enemies and the ledger as they were. */
  lemma QuietStep(p: Projectile, es: seq<Enemy>, stats: Ledger.Stats, steer: (Vec3, Vec3) -> Vec3)
    requires !InContact(p, es)
    ensures ProjectileStep(p, es, stats, steer).enemies == es
    ensures ProjectileStep(p, es, stats, steer).stats == stats
  {
  }

  /** When no projectile touches its target, every projectile whose target is present flies on. */
  lemma {:induction false} QuietPassKeeps(ps: seq<Projectile>, es: seq<Enemy>, stats: Ledger.Stats,
                                          steer: (Vec3, Vec3) -> Vec3)
    requires forall i :: 0 <= i < |ps| ==> !InContact(ps[i], es)
    ensures forall i :: 0 <= i < |ps| && IndexOfId(es, ps[i].target).Some? ==>
      ProjectileStep(ps[i], es, stats, steer).shot.value in ProjectilesStep(ps, es, stats, steer).shots
    decreases |ps|
  {
    if |ps| > 0 {
      QuietStep(ps[0], es, stats, steer);
      forall i | 0 <= i < |ps[1..]|
        ensures !InContact(ps[1..][i], es)
      {
        assert ps[1..][i] == ps[i + 1];
      }
      QuietPassKeeps(ps[1..], es, stats, steer);
      forall i | 0 <= i < |ps| && IndexOfId(es, ps[i].target).Some?
        ensures ProjectileStep(ps[i], es, stats, steer).shot.value in ProjectilesStep(ps, es, stats, steer).shots
      {
        if i > 0 {
          assert ps[i] == ps[1..][i - 1];
        }
      }
    }
  }

  /** When no projectile touches its target, everything in flight afterwards is one of them flying on. */
  lemma {:induction false} QuietPassOnly(ps: seq<Projectile>, es: seq<Enemy>, stats: Ledger.Stats,
                                         steer: (Vec3, Vec3) -> Vec3)
    requires forall i :: 0 <= i < |ps| ==> !InContact(ps[i], es)
    ensures forall q :: q in ProjectilesStep(ps, es, stats, steer).shots ==>
      exists i :: 0 <= i < |ps| && ProjectileStep(ps[i], es, stats, steer).shot == Some(q)
    decreases |ps|
  {
    if |ps| > 0 {
      var first := ProjectileStep(ps[0], es, stats, steer);
      QuietStep(ps[0], es, stats, steer);
      forall i | 0 <= i < |ps[1..]|
        ensures !InContact(ps[1..][i], es)
      {
        assert ps[1..][i] == ps[i + 1];
      }
      QuietPassOnly(ps[1..], es, stats, steer);
      var rest := ProjectilesStep(ps[1..], es, stats, steer);
      forall q | q in ProjectilesStep(ps, es, stats, steer).shots
        ensures exists i :: 0 <= i < |ps| && ProjectileStep(ps[i], es, stats, steer).shot == Some(q)
      {
        if q in rest.shots {
          var j :| 0 <= j < |ps[1..]| && ProjectileStep(ps[1..][j], es, stats, steer).shot == Some(q);
          assert ps[1..][j] == ps[j + 1];
          assert ProjectileStep(ps[j + 1], es, stats, steer).shot == Some(q);
        } else {
          assert first.shot == Some(q);
        }
      }
    }
  }

  /** The accounting functions distribute over concatenation of a first element. */
  lemma KillsSplit(a: seq<Projectile>, b: seq<Projectile>)
    requires |a| <= 1
    ensures DamageSum(a + b) == DamageSum(a) + DamageSum(b)
    ensures forall k :: KindDamage(a + b, k) == KindDamage(a, k) + KindDamage(b, k)
    ensures Targets(a + b) == Targets(a) + Targets(b)
    ensures forall q :: q in a + b <==> q in a || q in b
  {
    if |a| == 1 {
      assert (a + b)[1..] == b;
    } else {
      assert a + b == b;
    }
  }
}

=== FILE: wave2d.dfy ===
/**
 * The wave scheduler and per-frame loop of the 2D canvas variant
 * (tower_defend/js/game.js).  The scheduler is the pair of flags
 * `previewShown` / `waveActive`: the first wave-button press shows the
 * roster of the coming wave, the second starts it; while active, each frame
 * may spawn one enemy and then checks whether the wave is over.
 *
 * The wave parameters (`WAVE_CONFIG`), the reward multiplier of the current
 * map, the `Enemy` constructor and the per-enemy `update` are defined outside
 * this file, so they enter as parameters.
 */
module Wave2D {
  import opened Kinds
  import Ledger

  /** The wave entries of `WAVE_CONFIG`; JavaScript numbers become reals. */
  datatype WaveConfig = WaveConfig(
    baseEnemyCount: int,
    enemyCountPerWave: real,
    baseSpawnInterval: real,
    spawnIntervalDecreasePerWave: real,
    minSpawnInterval: real,
    baseReward: real,
    rewardPerWave: real)

  /** A 2D enemy as far as the loop reads it: its kind and its health. */
  datatype Enemy = Enemy(kind: EnemyKind, health: real)

  /** What the (external) `Enemy.update` yields: the moved enemy and whether it reached the end. */
  datatype Moved = Moved(enemy: Enemy, reachedEnd: bool)

  /**
   * The module-level state of game.js.  Towers and projectiles are kept only
   * by their kind tag; `mapWave` is the wave number the current map was
   * generated for (`generateMapForWave`).
   */
  datatype Game = Game(
    running: bool,
    farmMode: bool,
    lives: int,
    money: int,
    wave: int,
    previewShown: bool,
    waveActive: bool,
    toSpawn: int,
    spawned: int,
    spawnTimer: int,
    spawnInterval: real,
    enemies: seq<Enemy>,
    towers: seq<TowerKind>,
    projectiles: seq<TowerKind>,
    stats: Ledger.Stats,
    mapWave: int)

  // ---------------------------------------------------------------------
  // Roster staircase (`showWaveNotification`)
  // ---------------------------------------------------------------------

  /** The enemy kinds announced for wave `n`, in the order they are listed. */
  function Roster(n: int): (r: seq<EnemyKind>)
    ensures |r| > 0 && r[0] == Normal
  {
    if n <= 2 then [Normal]
    else if n <= 5 then [Normal, Fast, Armored]
    else if n <= 8 then [Normal, Fast, Armored, Flying, BasicImmune]
    else if n <= 12 then [Normal, Fast, Armored, Flying, BasicImmune, Ghost]
    else if n <= 15 then
      [Normal, Fast, Armored, Flying, Resilient, BasicImmune, LaserImmune, Ghost, Mirror]
    else if n <= 18 then
      [Normal, Fast, Armored, Flying, Resilient, BasicImmune, LaserImmune, Ghost, Mirror,
       Timebender]
    else if n <= 20 then
      [Normal, Fast, Armored, Flying, Resilient, BasicImmune, LaserImmune, Ghost, Mirror,
       Timebender, Virus]
    else
      [Normal, Fast, Armored, Flying, Resilient, BasicImmune, LaserImmune, Ghost, Mirror,
       Timebender, Virus, Chainbreaker]
  }

  /** The first wave whose roster lists `k` (an independent reading of the table). */
  function UnlockWave(k: EnemyKind): int
  {
    match k
    case Normal => 1
    case Fast => 3
    case Armored => 3
    case Flying => 6
    case BasicImmune => 6
    case Ghost => 9
    case Resilient => 13
    case LaserImmune => 13
    case Mirror => 13
    case Timebender => 16
    case Virus => 19
    case Chainbreaker => 21
  }

  /** A kind is announced exactly from its unlock wave on; `Normal` always. */
  lemma RosterUnlock(n: int, k: EnemyKind)
    ensures k in Roster(n) <==> (k == Normal || n >= UnlockWave(k))
  {
  }

  /** The roster only grows with the wave number. */
  lemma RosterMonotone(n: int, m: int)
    requires n <= m
    ensures forall k :: k in Roster(n) ==> k in Roster(m)
    ensures Normal in Roster(n)
  {
    forall k | k in Roster(n)
      ensures k in Roster(m)
    {
      RosterUnlock(n, k);
      RosterUnlock(m, k);
    }
  }

  // ---------------------------------------------------------------------
  // Wave formulas
  // ---------------------------------------------------------------------

  /** `baseEnemyCount + Math.floor(wave * enemyCountPerWave)`. */
  function SpawnTotal(cfg: WaveConfig, w: int): (r: int)
    ensures (r - cfg.baseEnemyCount) as real <= w as real * cfg.enemyCountPerWave
    ensures w as real * cfg.enemyCountPerWave < (r - cfg.baseEnemyCount + 1) as real
  {
    cfg.baseEnemyCount + (w as real * cfg.enemyCountPerWave).Floor
  }

  /** `Math.max(minSpawnInterval, baseSpawnInterval - wave * decrease)`. */
  function SpawnInterval(cfg: WaveConfig, w: int): (r: real)
    ensures r >= cfg.minSpawnInterval
    ensures r >= cfg.baseSpawnInterval - w as real * cfg.spawnIntervalDecreasePerWave
    ensures r == cfg.minSpawnInterval
         || r == cfg.baseSpawnInterval - w as real * cfg.spawnIntervalDecreasePerWave
  {
    var linear := cfg.baseSpawnInterval - w as real * cfg.spawnIntervalDecreasePerWave;
    if cfg.minSpawnInterval >= linear then cfg.minSpawnInterval else linear
  }

  /** With a non-negative decrease, later waves never spawn more slowly. */
  lemma SpawnIntervalMonotone(cfg: WaveConfig, v: int, w: int)
    requires cfg.spawnIntervalDecreasePerWave >= 0.0
    requires v <= w
    ensures SpawnInterval(cfg, w) <= SpawnInterval(cfg, v)
  {
    var d := cfg.spawnIntervalDecreasePerWave;
    assert (w - v) as real * d >= 0.0;
    assert w as real * d == v as real * d + (w - v) as real * d;
  }

  /** `Math.floor((baseReward + wave * rewardPerWave) * multiplier)`. */
  function WaveReward(cfg: WaveConfig, w: int, multiplier: real): (r: int)
    ensures r as real <= (cfg.baseReward + w as real * cfg.rewardPerWave) * multiplier
    ensures (cfg.baseReward + w as real * cfg.rewardPerWave) * multiplier < (r + 1) as real
  {
    ((cfg.baseReward + w as real * cfg.rewardPerWave) * multiplier).Floor
  }

  /** With a non-negative per-wave bonus and multiplier, a later wave never pays less. */
  lemma RewardMonotone(cfg: WaveConfig, w1: int, w2: int, multiplier: real)
    requires cfg.rewardPerWave >= 0.0 && multiplier >= 0.0 && w1 <= w2
    ensures WaveReward(cfg, w1, multiplier) <= WaveReward(cfg, w2, multiplier)
  {
    var x1 := cfg.baseReward + w1 as real * cfg.rewardPerWave;
    var x2 := cfg.baseReward + w2 as real * cfg.rewardPerWave;
    assert x2 - x1 == (w2 - w1) as real * cfg.rewardPerWave;
    assert x1 <= x2;
    assert (x2 - x1) * multiplier >= 0.0;
    assert x1 * multiplier <= x2 * multiplier;
  }

  /** The every-five-waves map change, for the wave number after the increment. */
  predicate MapChangeDue(w: int)
  {
    w % 5 == 1 && w > 1
  }

  // ---------------------------------------------------------------------
  // Wave button
  // ---------------------------------------------------------------------

  /** `startNextWave`. */
  function StartNextWave(g: Game, cfg: WaveConfig): (r: Game)
    ensures g.waveActive ==> r == g
    ensures !g.waveActive ==>
      && r.waveActive && !r.previewShown && r.spawned == 0
      && r.toSpawn == SpawnTotal(cfg, g.wave)
      && r.spawnInterval == SpawnInterval(cfg, g.wave)
      && r.spawnInterval >= cfg.minSpawnInterval
      && r.spawnTimer == g.spawnTimer
      && r.wave == g.wave && r.money == g.money && r.lives == g.lives
      && r.enemies == g.enemies && r.towers == g.towers && r.stats == g.stats
      && r.projectiles == g.projectiles && r.running == g.running
      && r.farmMode == g.farmMode && r.mapWave == g.mapWave
  {
    if g.waveActive then g
    else
      g.(waveActive := true, spawned := 0, previewShown := false,
         toSpawn := SpawnTotal(cfg, g.wave), spawnInterval := SpawnInterval(cfg, g.wave))
  }

  datatype Press = Press(game: Game, preview: Option<seq<EnemyKind>>)

  /** `handleWaveButtonClick`: preview first, start on the next press. */
  function PressWaveButton(g: Game, cfg: WaveConfig): (r: Press)
    ensures r.preview.Some? <==> !g.previewShown
    ensures r.preview.Some? ==>
      r.preview.value == Roster(g.wave) && r.game == g.(previewShown := true)
    ensures g.previewShown && !g.waveActive ==>
      r.game.waveActive && r.game.spawned == 0 && !r.game.previewShown
    ensures g.previewShown && g.waveActive ==> r.game == g
    ensures g.previewShown ==> r.game == StartNextWave(g, cfg)
  {
    if !g.previewShown then Press(g.(previewShown := true), Some(Roster(g.wave)))
    else Press(StartNextWave(g, cfg), None)
  }

  /** From the idle state, two presses start the wave; the first alone does not. */
  lemma TwoPressesStartWave(g: Game, cfg: WaveConfig)
    requires !g.previewShown && !g.waveActive
    ensures !PressWaveButton(g, cfg).game.waveActive
    ensures var g2 := PressWaveButton(PressWaveButton(g, cfg).game, cfg).game;
      g2.waveActive && g2.spawned == 0 && g2.wave == g.wave
      && g2.toSpawn == SpawnTotal(cfg, g.wave)
  {
  }

  /**
   * During an active wave, any press leaves the scheduler's counters, the
   * wave and the economy alone; at most the preview flag is raised.
   */
  lemma PressDuringActiveWave(g: Game, cfg: WaveConfig)
    requires g.waveActive
    ensures PressWaveButton(g, cfg).game == g.(previewShown := true)
  {
  }

  // ---------------------------------------------------------------------
  // The frame loop
  // ---------------------------------------------------------------------

  /** The spawn condition checked after the timer increment. */
  predicate SpawnDue(g: Game)
  {
    (g.spawnTimer + 1) as real >= g.spawnInterval && g.spawned < g.toSpawn
  }

  /** Timer increment and at most one spawn (`new Enemy(wave)` is `newcomer`). */
  function SpawnStep(g: Game, newcomer: Enemy): (r: Game)
    ensures SpawnDue(g) ==>
      r.enemies == g.enemies + [newcomer] && r.spawned == g.spawned + 1 && r.spawnTimer == 0
    ensures !SpawnDue(g) ==>
      r.enemies == g.enemies && r.spawned == g.spawned && r.spawnTimer == g.spawnTimer + 1
    ensures g.spawned <= g.toSpawn ==> r.spawned <= r.toSpawn
    ensures r.toSpawn == g.toSpawn && r.wave == g.wave && r.money == g.money
    ensures r.waveActive == g.waveActive && r.stats == g.stats && r.towers == g.towers
  {
    var timer := g.spawnTimer + 1;
    if timer as real >= g.spawnInterval && g.spawned < g.toSpawn then
      g.(enemies := g.enemies + [newcomer], spawned := g.spawned + 1, spawnTimer := 0)
    else
      g.(spawnTimer := timer)
  }

  /** Everything was spawned and every enemy is gone. */
  predicate WaveCleared(g: Game)
  {
    g.spawned >= g.toSpawn && |g.enemies| == 0
  }

  /** `changeToNextMap`: towers and projectiles go, money stays, a new map is generated. */
  function ChangeToNextMap(g: Game): (r: Game)
    ensures r.towers == [] && r.projectiles == []
    ensures r.mapWave == g.wave
    ensures r.money == g.money && r.lives == g.lives && r.wave == g.wave
    ensures r.enemies == g.enemies && r.stats == g.stats
  {
    g.(towers := [], projectiles := [], mapWave := g.wave)
  }

  /** The completion branch of the loop; `multiplier` is `getCurrentRewardMultiplier()`. */
  function CompleteStep(g: Game, cfg: WaveConfig, multiplier: real): (r: Game)
    ensures !WaveCleared(g) ==> r == g
    ensures WaveCleared(g) ==>
      && !r.waveActive && !r.previewShown
      && r.money == g.money + WaveReward(cfg, g.wave, multiplier)
      && r.wave == g.wave + 1
      && r.stats == Ledger.Zero()
      && r.lives == g.lives && r.enemies == g.enemies && r.spawned == g.spawned
    ensures WaveCleared(g) && MapChangeDue(g.wave + 1) ==>
      r.towers == [] && r.projectiles == [] && r.mapWave == g.wave + 1
    ensures WaveCleared(g) && !MapChangeDue(g.wave + 1) ==>
      r.towers == g.towers && r.projectiles == g.projectiles && r.mapWave == g.mapWave
  {
    if !WaveCleared(g) then g
    else
      var paid := g.(waveActive := false, previewShown := false,
                     money := g.money + WaveReward(cfg, g.wave, multiplier),
                     wave := g.wave + 1);
      var moved := if MapChangeDue(paid.wave) then ChangeToNextMap(paid) else paid;
      moved.(stats := Ledger.Zero())
  }

  /** An updated enemy stays on the board: it is alive and did not reach the end. */
  predicate Stays(m: Moved)
  {
    m.enemy.health > 0.0 && !m.reachedEnd
  }

  /** The positions of the enemies that stay after their update. */
  function StayingAt(es: seq<Enemy>, advance: Enemy -> Moved): set<int>
  {
    set i | 0 <= i < |es| && Stays(advance(es[i]))
  }

  /**
   * The removal pass over the updated enemies: dead ones (health <= 0) and
   * ones that reached the end are dropped; nothing is paid for a kill.
   */
  function Survivors(es: seq<Enemy>, advance: Enemy -> Moved): (r: seq<Enemy>)
    ensures |r| <= |es|
    ensures forall e :: e in r ==> e.health > 0.0
    ensures forall i :: 0 <= i < |es| ==>
      (advance(es[i]).enemy.health > 0.0 && !advance(es[i]).reachedEnd ==> advance(es[i]).enemy in r)
    ensures forall e :: e in r ==>
      exists i :: 0 <= i < |es| && advance(es[i]) == Moved(e, false)
  {
    if |es| == 0 then []
    else
      var m := advance(es[0]);
      var rest := Survivors(es[1..], advance);
      assert forall i :: 1 <= i < |es| ==> es[i] == es[1..][i - 1];
      if m.enemy.health > 0.0 && !m.reachedEnd then [m.enemy] + rest else rest
  }

  /** The removal pass treats a list piecewise. */
  lemma {:induction false} SurvivorsAppend(a: seq<Enemy>, b: seq<Enemy>, advance: Enemy -> Moved)
    ensures Survivors(a + b, advance) == Survivors(a, advance) + Survivors(b, advance)
    decreases |a|
  {
    if |a| == 0 {
      assert a + b == b;
    } else {
      assert (a + b)[0] == a[0];
      assert (a + b)[1..] == a[1..] + b;
      SurvivorsAppend(a[1..], b, advance);
    }
  }

  /**
   * Every enemy that stays is kept as its own copy: the pass keeps exactly as
   * many enemies as there are positions whose update stays, even when two
   * enemies are equal records.
   */
  lemma {:induction false} SurvivorCount(es: seq<Enemy>, advance: Enemy -> Moved)
    ensures |Survivors(es, advance)| == |StayingAt(es, advance)|
    decreases |es|
  {
    if |es| == 0 {
      assert StayingAt(es, advance) == {};
    } else {
      var n := |es| - 1;
      var init := es[..n];
      var last := es[n];
      assert es == init + [last];
      SurvivorsAppend(init, [last], advance);
      SurvivorCount(init, advance);
      assert [last][1..] == [];
      StayingSnoc(es, advance);
    }
  }

  /** The staying positions of a list are those of its front plus possibly its last position. */
  lemma StayingSnoc(es: seq<Enemy>, advance: Enemy -> Moved)
    requires |es| > 0
    ensures |StayingAt(es, advance)| ==
      |StayingAt(es[..|es| - 1], advance)| + (if Stays(advance(es[|es| - 1])) then 1 else 0)
  {
    var n := |es| - 1;
    var init := es[..n];
    var front := StayingAt(init, advance);
    var tail: set<int> := if Stays(advance(es[n])) then {n} else {};
    forall i | i in StayingAt(es, advance)
      ensures i in front + tail
    {
      if i < n {
        assert init[i] == es[i];
      }
    }
    forall i | i in front + tail
      ensures i in StayingAt(es, advance)
    {
      if i < n {
        assert init[i] == es[i];
      }
    }
    assert StayingAt(es, advance) == front + tail;
    assert n !in front;
  }

  /**
   * One call of `gameLoop`, with the drawing removed.  `newcomer` is the enemy a
   * spawn would create, `multiplier` the current map's reward multiplier and
   * `advance` the per-enemy update.
   */
  function Tick(g: Game, cfg: WaveConfig, newcomer: Enemy, multiplier: real,
                advance: Enemy -> Moved): (r: Game)
    ensures !g.running || g.farmMode ==> r == g
    ensures r.lives == g.lives && r.running == g.running && r.farmMode == g.farmMode
    ensures r.wave == g.wave || r.wave == g.wave + 1
    ensures r.wave == g.wave ==> r.money == g.money
    ensures r.wave == g.wave + 1 ==>
      r.money == g.money + WaveReward(cfg, g.wave, multiplier) && r.spawned == g.spawned
      && !r.waveActive && r.stats == Ledger.Zero()
    ensures !g.waveActive ==> r.wave == g.wave && r.spawned == g.spawned
    ensures g.spawned <= g.toSpawn ==> r.spawned <= r.toSpawn
    ensures r.spawned <= g.spawned + 1
    ensures g.running && !g.farmMode ==> forall e :: e in r.enemies ==> e.health > 0.0
    ensures g.running && !g.farmMode ==>
      var spawn := g.waveActive && SpawnDue(g);
      && r.enemies == Survivors(if spawn then g.enemies + [newcomer] else g.enemies, advance)
      && r.spawned == (if spawn then g.spawned + 1 else g.spawned)
      && (g.waveActive ==> r.spawnTimer == (if spawn then 0 else g.spawnTimer + 1))
      && (!g.waveActive ==> r.spawnTimer == g.spawnTimer)
      && (r.wave == g.wave + 1 <==> g.waveActive && WaveCleared(g))
  {
    if !g.running || g.farmMode then g
    else
      var w := if g.waveActive then CompleteStep(SpawnStep(g, newcomer), cfg, multiplier) else g;
      w.(enemies := Survivors(w.enemies, advance))
  }

  /** A frame that spawns an enemy never also completes the wave. */
  lemma SpawnBeforeCompletion(g: Game, cfg: WaveConfig, newcomer: Enemy, multiplier: real)
    requires g.waveActive && SpawnDue(g)
    ensures CompleteStep(SpawnStep(g, newcomer), cfg, multiplier) == SpawnStep(g, newcomer)
  {
  }

  /** `gameOver`: the loop stops. */
  function GameOver(g: Game): (r: Game)
    ensures !r.running
    ensures r.(running := g.running) == g
  {
    g.(running := false)
  }

  /** `takeDamage`: one life lost; the game ends when none are left. */
  function TakeDamage(g: Game): (r: Game)
    ensures r.lives == g.lives - 1
    ensures r.running <==> g.running && g.lives - 1 > 0
    ensures r.(running := g.running, lives := g.lives) == g
  {
    var hurt := g.(lives := g.lives - 1);
    if hurt.lives <= 0 then GameOver(hurt) else hurt
  }

  /**
   * After `gameOver` the frame loop no longer moves anything, whatever it is
   * fed; losing the last life has the same effect.
   */
  lemma GameOverIsFinal(g: Game, cfg: WaveConfig, newcomer: Enemy, multiplier: real,
                        advance: Enemy -> Moved)
    ensures Tick(GameOver(g), cfg, newcomer, multiplier, advance) == GameOver(g)
    ensures g.lives <= 1 ==>
      Tick(TakeDamage(g), cfg, newcomer, multiplier, advance) == TakeDamage(g)
  {
  }

  /** Completing wave 5 moves to a new map: towers and projectiles go, money only gains the reward. */
  lemma MapChangeAtWaveSix(g: Game, cfg: WaveConfig, multiplier: real)
    requires g.wave == 5 && WaveCleared(g)
    ensures var r := CompleteStep(g, cfg, multiplier);
      r.wave == 6 && r.towers == [] && r.projectiles == [] && r.mapWave == 6
      && r.money == g.money + WaveReward(cfg, 5, multiplier)
  {
  }
}
